=== FILE: README.md ===
# gwt-youtube-api core, modelled in Dafny

This project models the data-handling core of a GWT client for the YouTube
GData API. It does not model the widgets.

- **CharEscaper** (`char_escaper.dfy`) is the string escaper. Its
  per-character rule, `escape(char)`, is a parameter: `None` keeps the
  char, and `Some(r)` replaces it with `r`. A fast path returns the input
  unchanged when nothing needs escaping. Otherwise the slow path fills a
  growable char buffer. The slow path is a method over a real array, with
  the loop invariants that make its result the flat-map of the rule.
- **Source** (`source.dfy`) is the feed-level metadata record, with its
  link operations: `getLink`, `getLinks`, both `addLink`s, both
  `removeLinks`, `addHtmlLink` and `getHtmlLink`. The link predicate
  `Link.matches(rel, type)` is a parameter. The copy constructor shares the
  state record by reference. This is modelled with a store of records and
  views that point into it.
- **MediaGroup** (`media_group.dfy`) is a `media:group` extension point. It
  has singular slots whose setters remove the extension on null, and
  repeating lists with add, clear and get. `getCategoriesWithScheme` is
  modelled too.
- **GmlPoint** (`gml_point.dfy`) is a `gml:Point` with an optional
  `gml:pos`: the constructors, the coordinate getters, and the four
  branches of `setGeoLocation`.
- **YouTubeSearchResult** (`search_result.dfy`) turns a video entry into
  the record the result panel displays:
  - the widest thumbnail, the first one on ties;
  - the description, with a fallback built from the keyword categories;
  - the set of author names;
  - the view count, 0 when there are no statistics.
- **Paging** (`paging.dfy`) covers the start index `(page - 1) *
  itemsPerPage + 1` in Java `int` arithmetic (both operands are taken to be
  `int`s).
- **View count** (`view_count.dfy`) covers the "N view"/"N views" label of
  a result.
- Shared helpers:
  - `nullable.dfy` holds `Option`, which stands for a Java reference that
    may be null.
  - `java_string.dfy` holds the Java string behaviour the core relies on:
    `trim`, `indexOf`, the `"null"` rendering of a null operand of `+`, and
    `Long.toString`.

Source paths below are relative to the repository root.

## Model

| member | source | states |
|---|---|---|
| CharEscaper.Escape | src/main/java/com/google/gdata/util/common/base/CharEscaper.java:11-20 | The result is the escaped form of the input: each char is replaced by its rule's replacement or kept. When no char has a replacement, the input itself comes back. |
| CharEscaper.EscapeSlow | src/main/java/com/google/gdata/util/common/base/CharEscaper.java:34-91 | Starting at `index`, the result is the chars before `index` copied verbatim, followed by the escaped rest. This is because `lastEscape` starts at 0. An index past the end copies the whole string. The buffer grows as needed from any initial size. |
| CharEscaper.PutReplacement | src/main/java/com/google/gdata/util/common/base/CharEscaper.java:53-75 | After one replacement, the written buffer holds what it held before, then the unescaped chars since the last escape, then the replacement. The buffer is grown when too small. |
| CharEscaper.GrowBuffer | src/main/java/com/google/gdata/util/common/base/CharEscaper.java:117-123 | The new buffer has the requested size and keeps the first `index` chars. |
| CharEscaper.CopyChars | src/main/java/com/google/gdata/util/common/base/CharEscaper.java:64-74 | After the copy, the destination's prefix is its old prefix followed by the copied range of the source. |
| CharEscaper.EscapedIdentity | src/main/java/com/google/gdata/util/common/base/CharEscaper.java:94-110 | A string none of whose chars has a replacement escapes to itself. |
| CharEscaper.EscapedLength | src/main/java/com/google/gdata/util/common/base/CharEscaper.java:94-110 | The escaped length is the total length of the replacements plus the number of kept chars. |
| CharEscaper.EmptyReplacementStrips | src/main/java/com/google/gdata/util/common/base/CharEscaper.java:94-110 | A char whose replacement is empty disappears from the output. |
| CharEscaper.EscapedAppend | src/main/java/com/google/gdata/util/common/base/CharEscaper.java:45-89 | Escaping distributes over concatenation, which is what lets the loop escape piece by piece. |
| Source.FirstMatch | src/main/java/com/google/gdata/data/Source.java:186-195 | The result is null exactly when no link matches. Otherwise it is a matching link with no earlier match. |
| Source.Matching | src/main/java/com/google/gdata/data/Source.java:206-214 | A link is in the result exactly when it is in the list and matches. |
| Source.NonMatching | src/main/java/com/google/gdata/data/Source.java:234-241 | A link survives removal exactly when it is in the list and does not match. |
| Source.NonMatchingAppend | src/main/java/com/google/gdata/data/Source.java:234-241 | The survivors of a concatenation are the survivors of each part, in order, so removal keeps list order. |
| Source.MatchingPartition | src/main/java/com/google/gdata/data/Source.java:206-241 | Together, the matches and the survivors of removal are the original list as a multiset. |
| Source.FirstMatchIsHead | src/main/java/com/google/gdata/data/Source.java:186-214 | `getLink` returns the head of `getLinks`, or null when that list is empty. |
| Source.MatchingAppend | src/main/java/com/google/gdata/data/Source.java:206-218 | The matches of a concatenation are the matches of each part, in order. |
| Source.RemovedLeavesNoMatch | src/main/java/com/google/gdata/data/Source.java:206-241 | After `removeLinks(rel, type)`, `getLinks(rel, type)` is empty. |
| Source.FirstMatchAfterAppend | src/main/java/com/google/gdata/data/Source.java:186-218 | After `addLink`, an existing first match stays the first match. Otherwise the new link is found exactly when it matches. |
| Source.HtmlLink | src/main/java/com/google/gdata/data/Source.java:262-278 | The added link has rel alternate, type HTML and the given href. Its language and title are the given ones, or null when absent. |
| Source.HtmlLinkOf | src/main/java/com/google/gdata/data/Source.java:285-288 | The HTML link is null exactly when no link matches rel alternate and type HTML. Otherwise it is the first link that does. |
| Source.HtmlLinkFindsAdded | src/main/java/com/google/gdata/data/Source.java:262-288 | When no HTML link exists yet and the matcher accepts exact agreement, `getHtmlLink` after `addHtmlLink` returns the added link. |
| Source.SetGeneratorFrom | src/main/java/com/google/gdata/data/Source.java:172-179 | The source's generator becomes the returned generator, which carries the given version, URI and name. Every other field is unchanged. |
| Source.AddLinkFrom | src/main/java/com/google/gdata/data/Source.java:220-224 | The links become the old links followed by the returned link. That link carries the given rel, type and href, with no language and no title. Every other field is unchanged. |
| Source.GeneratorFromDelegates | src/main/java/com/google/gdata/data/Source.java:172-179 | `setGenerator(version, uri, name)` leaves the same state as `setGenerator(gen)` given the generator it builds. |
| Source.LinkFromDelegates | src/main/java/com/google/gdata/data/Source.java:220-224 | `addLink(rel, type, href)` leaves the same state as `addLink(link)` given the link it builds. |
| Source.Apply | src/main/java/com/google/gdata/data/Source.java:92-278 | Every operation leaves every field other than its target unchanged. The link operations append the link, drop the matches, empty the list, or append the HTML link. |
| Source.SetterReadsBack | src/main/java/com/google/gdata/data/Source.java:92-170 | Each setter's value is what the matching getter returns afterwards. |
| Source.ClearLinksFindsNothing | src/main/java/com/google/gdata/data/Source.java:246-248 | After `removeLinks()`, no query finds a link. |
| Source.NewSource | src/main/java/com/google/gdata/data/Source.java:80-82 | A new source reads a fresh empty state record, and no other record changes. |
| Source.CopyOf | src/main/java/com/google/gdata/data/Source.java:88-90 | The copy is a new view on the same state record. |
| Source.Perform | src/main/java/com/google/gdata/data/Source.java:75-278 | An operation through a view turns the record that view points to into the result of applying the command to it. It leaves every other record unchanged. |
| Source.CopiesShareUpdates | src/main/java/com/google/gdata/data/Source.java:84-90 | For any live source and its copy, an update through the original is seen through the copy, and the other way round. Every view on another live record sees no change. |
| MediaGroup.SetSingular | src/main/java/com/google/gdata/data/media/mediarss/MediaGroup.java:69-199 | A getter returns what its setter stored, and null after a null was set. No other slot and no list changes, and every extension stays in the slot of its own kind. |
| MediaGroup.AddRepeating | src/main/java/com/google/gdata/data/media/mediarss/MediaGroup.java:32-34 | Adding appends to the list of the element's kind and leaves every other list and every slot unchanged. |
| MediaGroup.ClearRepeating | src/main/java/com/google/gdata/data/media/mediarss/MediaGroup.java:28-30 | Clearing empties one list and leaves everything else unchanged. |
| MediaGroup.CategoriesWithScheme | src/main/java/com/google/gdata/data/media/mediarss/MediaGroup.java:49-59 | A category is in the result exactly when it is attached and its scheme equals the given one, where a null scheme selects the categories without a scheme. |
| MediaGroup.CollectWithScheme | src/main/java/com/google/gdata/data/media/mediarss/MediaGroup.java:50-58 | The loop collects exactly the listed categories whose scheme matches. |
| MediaGroup.Categories | src/main/java/com/google/gdata/data/media/mediarss/MediaGroup.java:36-38 | In a well-formed group, every element of the category list is a category. |
| MediaGroup.Thumbnails | src/main/java/com/google/gdata/data/media/mediarss/MediaGroup.java:141-143 | In a well-formed group, there are as many thumbnails as elements in the thumbnail list. |
| MediaGroup.DescriptionText | src/main/java/com/google/gdata/data/media/mediarss/MediaGroup.java:197-199 | Without a description extension the text is null. A non-null text comes from the description extension in its slot. |
| MediaGroup.ThumbnailsOf | src/main/java/com/google/gdata/data/media/mediarss/MediaGroup.java:141-143 | The thumbnails are exactly the thumbnail elements of the list. |
| MediaGroup.SetSingularOverwrites | src/main/java/com/google/gdata/data/media/mediarss/MediaGroup.java:73-79 | Setting a slot twice keeps only the second value. |
| MediaGroup.SetSingularCommutes | src/main/java/com/google/gdata/data/media/mediarss/MediaGroup.java:69-199 | Setters of different slots commute. |
| MediaGroup.DescriptionReadsBack | src/main/java/com/google/gdata/data/media/mediarss/MediaGroup.java:189-199 | `getDescription` after `setDescription` gives back the text stored, and null after null. |
| MediaGroup.AddedThumbnailIsLast | src/main/java/com/google/gdata/data/media/mediarss/MediaGroup.java:141-151 | An added thumbnail becomes the last thumbnail, and the count grows by one. |
| MediaGroup.ThumbnailsAppend | src/main/java/com/google/gdata/data/media/mediarss/MediaGroup.java:141-151 | Taking the thumbnails commutes with concatenation. |
| GmlPoint.Latitude | src/main/java/com/google/gdata/data/geo/impl/GmlPoint.java:89-92 | Without a pos the latitude is null. A non-null latitude is the pos's latitude. |
| GmlPoint.Longitude | src/main/java/com/google/gdata/data/geo/impl/GmlPoint.java:97-100 | Without a pos the longitude is null. A non-null longitude is the pos's longitude. |
| GmlPoint.GetLat | src/main/java/com/google/gdata/data/geo/impl/GmlPoint.java:126-129 | `getLat` is `getLatitude`, and is null without a pos. |
| GmlPoint.GetLon | src/main/java/com/google/gdata/data/geo/impl/GmlPoint.java:131-134 | `getLon` is `getLongitude`, and is null without a pos. |
| GmlPoint.Empty | src/main/java/com/google/gdata/data/geo/impl/GmlPoint.java:39-40 | There is no pos, so both coordinates read as null. |
| GmlPoint.FromCoordinates | src/main/java/com/google/gdata/data/geo/impl/GmlPoint.java:46-48 | A pos is always created, even for two nulls, and the getters return the given coordinates. |
| GmlPoint.FromPoint | src/main/java/com/google/gdata/data/geo/impl/GmlPoint.java:55-62 | There is a pos exactly when the point is not null. It carries the point's coordinates, and is the point itself when the point already is a pos. |
| GmlPoint.SetGeoLocation | src/main/java/com/google/gdata/data/geo/impl/GmlPoint.java:111-124 | The getters return the new coordinates. A pos exists afterwards exactly when one coordinate is not null. Two nulls on a point without a pos change nothing. An existing pos is updated in place, and a new one starts empty. |
| GmlPoint.SetGeoLocationIdempotent | src/main/java/com/google/gdata/data/geo/impl/GmlPoint.java:111-124 | Setting the same location twice equals setting it once. |
| GmlPoint.SetGeoLocationRebuilds | src/main/java/com/google/gdata/data/geo/impl/GmlPoint.java:46-48 | On a point built from coordinates, setting a non-null location equals building from the new coordinates. |
| YouTubeSearchResult.WidestIndex | src/main/java/com/google/gdata/client/youtube/ui/YouTubeSearchResultPanel.java:148-158 | The scan settles on a thumbnail at least as wide as every other and strictly wider than every earlier one. |
| YouTubeSearchResult.LargestThumbnail | src/main/java/com/google/gdata/client/youtube/ui/YouTubeSearchResultPanel.java:142-161 | The result is null exactly for a null or empty list. Otherwise it is the first of the widest thumbnails. |
| YouTubeSearchResult.LargestIsFirstWidest | src/main/java/com/google/gdata/client/youtube/ui/YouTubeSearchResultPanel.java:142-161 | Any position that is the first of the widest is the one chosen, so the choice is unique. |
| YouTubeSearchResult.KeywordTerm | src/main/java/com/google/gdata/client/youtube/ui/YouTubeSearchResultPanel.java:109-115 | A category contributes its term exactly when it is non-null, its scheme contains "keywords", and its term is non-empty. |
| YouTubeSearchResult.Present | src/main/java/com/google/gdata/client/youtube/ui/YouTubeSearchResultPanel.java:107-116 | The contributed terms are exactly the non-null contributions. |
| YouTubeSearchResult.PresentAppend | src/main/java/com/google/gdata/client/youtube/ui/YouTubeSearchResultPanel.java:107-116 | Taking the non-null contributions of a concatenation takes them from each part, in order, so iteration order is kept. |
| YouTubeSearchResult.AppendKeywords | src/main/java/com/google/gdata/client/youtube/ui/YouTubeSearchResultPanel.java:109-117 | Without keyword terms, the loop leaves the description as it was. With at least one, the result is non-null, even from a null start. |
| YouTubeSearchResult.AppendKeywordsAppends | src/main/java/com/google/gdata/client/youtube/ui/YouTubeSearchResultPanel.java:107-116 | Without keywords, the loop leaves the description alone. Otherwise it appends every quoted keyword, in order, to the rendering of the starting description. |
| YouTubeSearchResult.KeywordDescription | src/main/java/com/google/gdata/client/youtube/ui/YouTubeSearchResultPanel.java:103-121 | As written: null exactly when there are no categories or no keyword categories. Otherwise "null" followed by the quoted keywords, which the trim leaves unchanged. |
| YouTubeSearchResult.IntendedKeywordDescription | src/main/java/com/google/gdata/client/youtube/ui/YouTubeSearchResultPanel.java:103-121 | As intended: null in the same cases. Otherwise the quoted keywords, one space apart, with nothing in front. |
| YouTubeSearchResult.AsWrittenHasNullPrefix | src/main/java/com/google/gdata/client/youtube/ui/YouTubeSearchResultPanel.java:103-121 | The as-written description is null exactly when the intended one is. Otherwise it is "null " followed by the intended one. |
| YouTubeSearchResult.NullPrefixWitness | src/main/java/com/google/gdata/client/youtube/ui/YouTubeSearchResultPanel.java:103-121 | One keyword category with term `cat` yields `null "cat"` as written and `"cat"` as intended. |
| YouTubeSearchResult.AuthorNames | src/main/java/com/google/gdata/client/youtube/ui/YouTubeSearchResultPanel.java:125-133 | A null author list gives the empty set. Otherwise a name is in the set exactly when some author has it, null names included. The set is never larger than the list. |
| YouTubeSearchResult.FromEntry | src/main/java/com/google/gdata/client/youtube/ui/YouTubeSearchResultPanel.java:78-140 | Each field comes from its source: the video id, the widest thumbnail's URL and the title, each null when missing; the media description, falling back to the keyword description as written (with "null" in front); the author names, the update time, and the view count, which is 0 without statistics. |
| YouTubeSearchResult.IntendedFromEntry | src/main/java/com/google/gdata/client/youtube/ui/YouTubeSearchResultPanel.java:78-140 | The constructor with the corrected fallback: every other field as `FromEntry` sets it, and a fallback description that is `FromEntry`'s with the leading "null " removed, null in the same cases. |
| YouTubeSearchResult.DescriptionIgnoresCategories | src/main/java/com/google/gdata/client/youtube/ui/YouTubeSearchResultPanel.java:103-104 | When the media group has a description, the categories do not affect the description. |
| YouTubeSearchResult.AuthorsIgnoreOrderAndDuplicates | src/main/java/com/google/gdata/client/youtube/ui/YouTubeSearchResultPanel.java:125-133 | Author lists with the same members give the same author set. |
| Paging.Wrap | src/main/java/com/google/gdata/client/youtube/ui/YouTubeSearchResultPanel.java:255 | An `int` result is congruent to the exact value modulo 2^32, and equal to it when the exact value fits. |
| Paging.StartIndex | src/main/java/com/google/gdata/client/youtube/ui/YouTubeSearchResultPanel.java:255 | The start index computed step by step in `int` is congruent to `(page - 1) * itemsPerPage + 1`, and equal to it when that fits. |
| Paging.NextQuery | src/main/java/com/google/gdata/client/youtube/ui/YouTubeSearchResultPanel.java:250-257 | The re-query keeps the items per page and takes the shown feed's total. Its start index is the page's start index: congruent to `(page - 1) * itemsPerPage + 1` modulo 2^32, which fixes the wrapped `int`, and equal to it when it fits. |
| Paging.FirstPageStartsAtOne | src/main/java/com/google/gdata/client/youtube/ui/YouTubeSearchResultPanel.java:255 | Page 1 starts at index 1 for every page size. |
| Paging.ConsecutivePages | src/main/java/com/google/gdata/client/youtube/ui/YouTubeSearchResultPanel.java:255 | Without overflow, consecutive pages start `itemsPerPage` apart. |
| Paging.StartIndexAtLeastOne | src/main/java/com/google/gdata/client/youtube/ui/YouTubeSearchResultPanel.java:255 | Without overflow, page 1 or later of a non-negative size starts at 1 or later. |
| Paging.PageFromStartIndex | src/main/java/com/google/gdata/client/youtube/ui/YouTubeSearchResultPanel.java:255 | Without overflow and with a positive size, the page number is recovered from the start index. |
| Paging.PageZeroStartsBelowOne | src/main/java/com/google/gdata/client/youtube/ui/YouTubeSearchResultPanel.java:255 | Page 0 starts at `1 - itemsPerPage`, below 1, because nothing guards the lower end. |
| Paging.FarPageWrapsNegative | src/main/java/com/google/gdata/client/youtube/ui/YouTubeSearchResultPanel.java:255 | Page 50,000,000 of size 50 wraps to the start index -1,794,967,345. |
| ViewCount.ViewsLabel | src/main/java/com/google/gdata/client/youtube/ui/YouTubeSearchResultPanel.java:384-385 | The label is the count, which reads back as the count, then a space, then the singular word for a count of 1 and the plural word otherwise. |
| ViewCount.ViewsLabelSplitsAtFirstSpace | src/main/java/com/google/gdata/client/youtube/ui/YouTubeSearchResultPanel.java:384-385 | The label's first space ends the rendered count, and the text before it parses back to the count. |
| ViewCount.ViewsLabelSingularIff | src/main/java/com/google/gdata/client/youtube/ui/YouTubeSearchResultPanel.java:384-385 | With distinct words, the singular word appears exactly for a count of 1. |
| JavaString.Trim | src/main/java/com/google/gdata/client/youtube/ui/YouTubeSearchResultPanel.java:118-120 | `trim` returns a contiguous piece of the input with only blanks (chars up to U+0020) cut at both ends, and a non-empty result starts and ends with a non-blank. |
| JavaString.IndexOf | src/main/java/com/google/gdata/client/youtube/ui/YouTubeSearchResultPanel.java:112 | `indexOf` is -1 exactly when there is no occurrence. Otherwise it is the first occurrence. |
| JavaString.LongToString | src/main/java/com/google/gdata/client/youtube/ui/YouTubeSearchResultPanel.java:384 | A rendered `long` is canonical. It is non-empty and starts with '-' exactly for a negative value. Everything after the first char is digits. The first digit is '0' only for zero, so there are no leading zeros. |
| JavaString.LongToStringRoundTrip | src/main/java/com/google/gdata/client/youtube/ui/YouTubeSearchResultPanel.java:384 | The decimal rendering of a `long` parses back to that `long`. |

## Left out

- Widgets. All GWT widget building, styling and event wiring is left out: the panels, labels, the paginator and the play handlers. Only the arithmetic and text they display are modelled.
- The remote fetch. The asynchronous fetch of a video feed and its failure label are left out, because they are network I/O. The feed's start index, page size and total arrive as parameters of `NextQuery`.
- Building the result set. Collecting results into a `HashSet` is left out, because it depends on the identity hash codes of the results.
- JSON binding. `Source.get(JSONObject)` overwrites seven fields from a JSON object: id, updated, title, subtitle, rights, icon and logo (Source.java:303-312). It is left out as deserialisation; the setters it amounts to are modelled by `Apply`. The extension declarations (`declareExtensions`, `getDefaultDescription`) register parsing metadata only and are left out too.
- Live collections. `getCategories()`, `getLinks()`, `getAuthors()` and `getContributors()` hand out the state's own mutable collections (Source.java:108-110, 152-162). Mutating them is the only way the categories, authors and contributors ever change, and it changes every view sharing the state. The model has no such aliasing: `Apply` keeps those three fields constant, and the links change only through the link commands.
- Null links. `addLink(null)` is accepted, after which `getLink`, `getLinks` and `removeLinks` throw `NullPointerException` at `link.matches` (Source.java:189, 209, 237). The model's links are never null.
- Mutable links. A `Link` is a mutable object shared by reference, so changing a link returned by `getLink` or `addLink` changes the stored link. The model's links are values.
- Other files. `MediaFeed.setService`, `YtUserProfileStatistics`, `YtDuration` and `AbstractFreeTextExtension` are left out. They are plain data holders and wiring outside the modelled core.
- The escape buffer. `DEST_TL` is not a per-thread buffer. It is one `static final` holder of a 1024-char array, shared by every escaper and every thread, and the slow path writes into that array in place. The model gives each call its own buffer: `EscapeSlow` starts from a fresh buffer of a given size, and `Escape` uses size 1024. Two threads escaping at once can corrupt each other's output in the Java code; the model does not show that race. The result of a single call does not depend on the buffer's old contents.
- Chars and code units. Java `char` is a UTF-16 code unit, while a Dafny `char` is a Unicode scalar value. A character above U+FFFF is one Dafny char but two Java chars, and Java hands each half to `escape(char)` separately. Lone surrogates cannot be represented at all. The model applies the rule to whole scalar values.
- Null arguments that throw. `escape(null)` throws `NullPointerException`, but the model's strings are never null. A null `Person` in the author list throws when the constructor reads its name, but the model's author list has no null elements. `new YouTubeSearchResult(null)` throws at its first line (YouTubeSearchResultPanel.java:80); the model's entry is never null.
- CharEscaper.EscapeSlow does not model Java `int` overflow in the buffer size arithmetic. Strings long enough to overflow are out of scope.
- `Link.matches` is a parameter, because `Link` is not part of this model. The values of `Link.Rel.ALTERNATE` and `Link.Type.HTML` are taken as "alternate" and "text/html".
- `GmlPos` is not part of this model. It is modelled as a record of two coordinates plus other content that an update keeps. A point passed to the constructor is copied into the record, so later changes made through the caller's reference are not modelled.
- Coordinates. `Double` coordinates and `DateTime` values are opaque: stored and compared, never computed with.
- Iteration order. The category set's order is the order of the given sequence, because a `HashSet`'s iteration order is not specified. Null elements inside the media lists are not modelled.
- Localized words. The localized words for "view" and "views" are parameters.
- Page operand types. The declarations of `event.getPageIndex()` and `pageQuery.getItemsPerPage()` are not part of this model; both are taken to be Java `int`s, so the start index is computed in 32-bit arithmetic.
- The first page. The panel's first query, `DEFAULT_QUERY_PAGE` (start index 1, five per page), is a constant of the widget code and is not modelled.
- Lower bound on the start index. Nothing keeps the start index at 1 or above: page 0 starts at `1 - itemsPerPage` (see `Paging.PageZeroStartsBelowOne`).
- Description fallback. The fallback is evidently meant to be the quoted keywords alone, but the code as written puts "null" in front (see Findings). `FromEntry` models the code as written. `IntendedFromEntry` is the constructor with the corrected fallback.

## Findings

| source | as written | input that shows it | evidently intended | confidence | as-written member | corrected member |
|---|---|---|---|---|---|---|
| src/main/java/com/google/gdata/client/youtube/ui/YouTubeSearchResultPanel.java:103-121 | The keyword loop runs `this.description += " \"" + term + "\""` while `description` is still null, so Java renders the null as "null". | A video entry with no media description and one category with scheme `keywords` and term `cat`. The description is `null "cat"` (lemma `NullPrefixWitness`). For every input, the result is "null " followed by the intended text (lemma `AsWrittenHasNullPrefix`). | The quoted keywords alone, `"cat"`. | not executed | YouTubeSearchResult.KeywordDescription | YouTubeSearchResult.IntendedKeywordDescription |

=== FILE: char_escaper.dfy ===
/**
 * A string escaper driven by a per-character replacement function.
 *
 * The per-character rule (the abstract `escape(char)` of the escaper) is a
 * parameter: it maps a char to `None` when the char is kept as it is, or to
 * `Some(r)` when the char is replaced by the chars `r` (possibly none, which
 * strips the char). The string operation has a fast path that returns the
 * input when nothing needs escaping and a slow path that fills a growable
 * char buffer.
 */
module CharEscaper {
  import opened Nullable

  /** The per-character rule: `None` keeps the char, `Some(r)` replaces it by `r`. */
  type Replacement = char -> Option<seq<char>>

  /** Initial length of the buffer the slow path writes into. */
  const InitialBufferSize: nat := 1024

  /** Extra room added whenever the buffer is grown inside the loop. */
  const DestPad: nat := 32

  // ---------------------------------------------------------------------------
  // Functional specification
  // ---------------------------------------------------------------------------

  /** What one char contributes to the escaped text. */
  function Emit(esc: Replacement, c: char): seq<char> {
    match esc(c)
    case Some(r) => r
    case None => [c]
  }

  /** The escaped form of `s`: every char's contribution, in order. */
  function Escaped(esc: Replacement, s: seq<char>): seq<char> {
    if s == [] then [] else Emit(esc, s[0]) + Escaped(esc, s[1..])
  }

  /** No char of `s` has a replacement. */
  predicate NothingToEscape(esc: Replacement, s: seq<char>) {
    forall j :: 0 <= j < |s| ==> esc(s[j]).None?
  }

  /** Total length of the replacements of the replaced chars of `s`. */
  function ReplacedLength(esc: Replacement, s: seq<char>): nat {
    if s == [] then 0
    else (match esc(s[0]) case Some(r) => |r| case None => 0) + ReplacedLength(esc, s[1..])
  }

  /** Number of chars of `s` that are kept as they are. */
  function KeptCount(esc: Replacement, s: seq<char>): nat {
    if s == [] then 0
    else (if esc(s[0]).None? then 1 else 0) + KeptCount(esc, s[1..])
  }

  /** Escaping distributes over concatenation. */
  lemma {:induction false} EscapedAppend(esc: Replacement, a: seq<char>, b: seq<char>)
    ensures Escaped(esc, a + b) == Escaped(esc, a) + Escaped(esc, b)
  {
    if a == [] {
      assert a + b == b;
    } else {
      assert (a + b)[1..] == a[1..] + b;
      EscapedAppend(esc, a[1..], b);
    }
  }

  /** Escaping one more char appends that char's contribution. */
  lemma EscapedSnoc(esc: Replacement, a: seq<char>, c: char)
    ensures Escaped(esc, a + [c]) == Escaped(esc, a) + Emit(esc, c)
  {
    EscapedAppend(esc, a, [c]);
    assert Escaped(esc, [c]) == Emit(esc, c) + Escaped(esc, []);
  }

  /** A string with nothing to escape is its own escaped form. */
  lemma {:induction false} EscapedIdentity(esc: Replacement, s: seq<char>)
    requires NothingToEscape(esc, s)
    ensures Escaped(esc, s) == s
  {
    if s != [] {
      EscapedIdentity(esc, s[1..]);
      assert s == [s[0]] + s[1..];
    }
  }

  /** The escaped text is as long as all replacements plus all kept chars. */
  lemma {:induction false} EscapedLength(esc: Replacement, s: seq<char>)
    ensures |Escaped(esc, s)| == ReplacedLength(esc, s) + KeptCount(esc, s)
  {
    if s != [] {
      EscapedLength(esc, s[1..]);
    }
  }

  /** A char whose replacement is empty is stripped from the output. */
  lemma EmptyReplacementStrips(esc: Replacement, a: seq<char>, c: char, b: seq<char>)
    requires esc(c) == Some([])
    ensures Escaped(esc, a + [c] + b) == Escaped(esc, a) + Escaped(esc, b)
  {
    EscapedAppend(esc, a + [c], b);
    EscapedSnoc(esc, a, c);
  }

  // ---------------------------------------------------------------------------
  // The buffer-based algorithm
  // ---------------------------------------------------------------------------

  function Min(a: nat, b: nat): nat {
    if a <= b then a else b
  }

  /**
   * Copies `src[srcBegin..srcEnd]` into `dest` at `destBegin`, as
   * `String.getChars` and `System.arraycopy` do; both throw unless the two
   * ranges are in bounds, which is what the `requires` demand.
   */
  method CopyChars(src: seq<char>, srcBegin: nat, srcEnd: nat, dest: array<char>, destBegin: nat)
    requires srcBegin <= srcEnd <= |src|
    requires destBegin + (srcEnd - srcBegin) <= dest.Length
    modifies dest
    ensures dest[..destBegin + (srcEnd - srcBegin)] == old(dest[..destBegin]) + src[srcBegin..srcEnd]
    ensures dest[destBegin + (srcEnd - srcBegin)..] == old(dest[destBegin + (srcEnd - srcBegin)..])
  {
    forall j | 0 <= j < srcEnd - srcBegin {
      dest[destBegin + j] := src[srcBegin + j];
    }
  }

  /**
   * A fresh buffer of length `size` whose first `index` chars are those of
   * `dest`; the rest holds Java's default char.
   */
  method GrowBuffer(dest: array<char>, index: nat, size: nat) returns (copy: array<char>)
    requires index <= dest.Length && index <= size
    ensures fresh(copy)
    ensures copy.Length == size
    ensures copy[..index] == dest[..index]
  {
    copy := new char[size](_ => '\0');
    if index > 0 {
      CopyChars(dest[..], 0, index, copy, 0);
    }
  }

  /**
   * One replacement step of the slow path: makes room if needed, copies the
   * skipped chars `s[lastEscape..index]` and then the replacement `rep`.
   */
  method PutReplacement(dest: array<char>, destSize: nat, destIndex: nat, s: seq<char>,
                        lastEscape: nat, index: nat, rep: seq<char>)
    returns (dest': array<char>, destSize': nat, destIndex': nat)
    requires lastEscape <= index < |s|
    requires destSize == dest.Length && destIndex <= destSize
    modifies dest
    ensures dest' == dest || fresh(dest')
    ensures destSize' == dest'.Length && destIndex' <= destSize'
    ensures dest'[..destIndex'] == old(dest[..destIndex]) + s[lastEscape..index] + rep
  {
    dest', destSize', destIndex' := dest, destSize, destIndex;
    var rlen := |rep|;
    var charsSkipped := index - lastEscape;
    var sizeNeeded := destIndex + charsSkipped + rlen;
    if destSize' < sizeNeeded {
      destSize' := sizeNeeded + (|s| - index) + DestPad;
      dest' := GrowBuffer(dest', destIndex', destSize');
    }
    if charsSkipped > 0 {
      CopyChars(s, lastEscape, index, dest', destIndex');
      destIndex' := destIndex' + charsSkipped;
    }
    assert dest'[..destIndex'] == old(dest[..destIndex]) + s[lastEscape..index];
    if rlen > 0 {
      CopyChars(rep, 0, rlen, dest', destIndex');
      destIndex' := destIndex' + rlen;
    }
    assert rep[0..rlen] == rep;
  }

  /**
   * What the slow path's loop keeps: the chars written so far, followed by
   * the chars skipped since the last escape, are `s[..k]` followed by the
   * escaped form of `s[k..m]`.
   */
  ghost predicate SlowPathInvariant(esc: Replacement, s: seq<char>, k: nat, m: nat,
                                    lastEscape: nat, written: seq<char>)
  {
    k <= m <= |s| && lastEscape <= m &&
    written + s[lastEscape..m] == s[..k] + Escaped(esc, s[k..m])
  }

  /** A kept char extends the pending skipped chars. */
  lemma KeepStep(esc: Replacement, s: seq<char>, k: nat, m: nat, lastEscape: nat, written: seq<char>)
    requires SlowPathInvariant(esc, s, k, m, lastEscape, written)
    requires m < |s| && esc(s[m]).None?
    ensures SlowPathInvariant(esc, s, k, m + 1, lastEscape, written)
  {
    var pending := s[lastEscape..m];
    var done := s[k..m];
    assert s[lastEscape..m + 1] == pending + [s[m]];
    assert s[k..m + 1] == done + [s[m]];
    EscapedSnoc(esc, done, s[m]);
    calc {
      written + s[lastEscape..m + 1];
      (written + pending) + [s[m]];
      s[..k] + Escaped(esc, done) + Emit(esc, s[m]);
      s[..k] + Escaped(esc, s[k..m + 1]);
    }
  }

  /** A replaced char flushes the skipped chars and then its replacement. */
  lemma ReplaceStep(esc: Replacement, s: seq<char>, k: nat, m: nat, lastEscape: nat, written: seq<char>)
    requires SlowPathInvariant(esc, s, k, m, lastEscape, written)
    requires m < |s| && esc(s[m]).Some?
    ensures SlowPathInvariant(esc, s, k, m + 1, m + 1, written + s[lastEscape..m] + esc(s[m]).value)
  {
    var done := s[k..m];
    assert s[k..m + 1] == done + [s[m]];
    assert s[m + 1..m + 1] == [];
    EscapedSnoc(esc, done, s[m]);
    calc {
      written + s[lastEscape..m] + esc(s[m]).value + s[m + 1..m + 1];
      (written + s[lastEscape..m]) + Emit(esc, s[m]);
      s[..k] + Escaped(esc, done) + Emit(esc, s[m]);
      s[..k] + Escaped(esc, s[k..m + 1]);
    }
  }

  /**
   * The slow path: starting with a buffer of `bufferSize` chars, escapes
   * `s` from position `index` on. Since the position of the last escape
   * starts at 0, the chars before `index` are copied verbatim whatever
   * their replacement; an `index` past the end copies all of `s`.
   */
  method EscapeSlow(esc: Replacement, s: seq<char>, index: nat, bufferSize: nat) returns (r: seq<char>)
    ensures var k := Min(index, |s|); r == s[..k] + Escaped(esc, s[k..])
  {
    var slen := |s|;
    var dest := new char[bufferSize](_ => '\0');
    var destSize := dest.Length;
    var destIndex: nat := 0;
    var lastEscape: nat := 0;
    var i: nat := index;
    ghost var k := Min(index, slen);
    ghost var m := k;  // Min(i, slen)
    assert s[k..m] == [];
    while i < slen
      invariant fresh(dest)
      invariant destSize == dest.Length && destIndex <= destSize
      invariant m == Min(i, slen)
      invariant SlowPathInvariant(esc, s, k, m, lastEscape, dest[..destIndex])
      decreases slen - i
    {
      var rep := esc(s[i]);
      if rep.None? {
        KeepStep(esc, s, k, m, lastEscape, dest[..destIndex]);
      } else {
        ReplaceStep(esc, s, k, m, lastEscape, dest[..destIndex]);
        dest, destSize, destIndex := PutReplacement(dest, destSize, destIndex, s, lastEscape, i, rep.value);
        lastEscape := i + 1;
      }
      i := i + 1;
      m := i;
    }
    ghost var written := dest[..destIndex];
    var charsLeft := slen - lastEscape;
    if charsLeft > 0 {
      var sizeNeeded := destIndex + charsLeft;
      if destSize < sizeNeeded {
        dest := GrowBuffer(dest, destIndex, sizeNeeded);
      }
      CopyChars(s, lastEscape, slen, dest, destIndex);
      destIndex := sizeNeeded;
    } else {
      assert s[lastEscape..slen] == [];
    }
    assert dest[..destIndex] == written + s[lastEscape..slen];
    assert s[k..m] == s[k..];
    r := dest[..destIndex];
  }

  /**
   * The escaped form of `s`: scans for the first char that has a
   * replacement and hands the rest to the slow path; when there is none,
   * `s` itself is returned.
   */
  method Escape(esc: Replacement, s: seq<char>) returns (r: seq<char>)
    ensures r == Escaped(esc, s)
    ensures NothingToEscape(esc, s) ==> r == s
  {
    var index := 0;
    while index < |s|
      invariant index <= |s|
      invariant NothingToEscape(esc, s[..index])
    {
      if esc(s[index]).Some? {
        r := EscapeSlow(esc, s, index, InitialBufferSize);
        EscapedIdentity(esc, s[..index]);
        EscapedAppend(esc, s[..index], s[index..]);
        assert s[..index] + s[index..] == s;
        return;
      }
      index := index + 1;
    }
    assert s[..index] == s;
    EscapedIdentity(esc, s);
    r := s;
  }
}

=== FILE: gml_point.dfy ===
/**
 * A GML `gml:Point`: an extension point whose only modelled child is an
 * optional `gml:pos` extension holding a latitude and a longitude. The
 * coordinates are opaque values: they are stored and read back, never
 * computed with.
 */
module GmlPoint {
  import opened Nullable

  /** A `Double` coordinate, stored and compared only. */
  type Double = real

  /**
   * A `gml:pos` element: its coordinates and whatever else the element
   * carries, which an update of the coordinates leaves alone.
   */
  datatype Pos = Pos(lat: Option<Double>, lon: Option<Double>, other: seq<(string, string)>)

  /** A `gml:Point` and its optional `gml:pos` extension. */
  datatype Point = Point(pos: Option<Pos>)

  /** A value of the `Point` interface: either already a `gml:pos`, or another implementation. */
  datatype PointValue =
    | PosValue(pos: Pos)
    | OtherPoint(lat: Option<Double>, lon: Option<Double>)

  /** The coordinates a `Point` value reports. */
  function LatOf(p: PointValue): Option<Double> {
    match p
    case PosValue(pos) => pos.lat
    case OtherPoint(lat, _) => lat
  }

  function LonOf(p: PointValue): Option<Double> {
    match p
    case PosValue(pos) => pos.lon
    case OtherPoint(_, lon) => lon
  }

  /** `getLatitude()`: the pos's latitude, or null when there is no pos. */
  function Latitude(p: Point): (r: Option<Double>)
    ensures p.pos.None? ==> r.None?
    ensures r.Some? ==> p.pos.Some? && p.pos.value.lat == r
  {
    if p.pos.Some? then p.pos.value.lat else None
  }

  /** `getLongitude()`: the pos's longitude, or null when there is no pos. */
  function Longitude(p: Point): (r: Option<Double>)
    ensures p.pos.None? ==> r.None?
    ensures r.Some? ==> p.pos.Some? && p.pos.value.lon == r
  {
    if p.pos.Some? then p.pos.value.lon else None
  }

  /** `getLat()` of the `Point` interface, which delegates to `getLatitude()`. */
  function GetLat(p: Point): (r: Option<Double>)
    ensures r == Latitude(p)
    ensures p.pos.None? ==> r.None?
  {
    Latitude(p)
  }

  /** `getLon()` of the `Point` interface, which delegates to `getLongitude()`. */
  function GetLon(p: Point): (r: Option<Double>)
    ensures r == Longitude(p)
    ensures p.pos.None? ==> r.None?
  {
    Longitude(p)
  }

  /** `GmlPoint()`: no pos. */
  function Empty(): (p: Point)
    ensures p.pos.None?
    ensures Latitude(p).None? && Longitude(p).None?
  {
    Point(None)
  }

  /** `GmlPoint(lat, lon)`: always creates a pos, even when both are null. */
  function FromCoordinates(lat: Option<Double>, lon: Option<Double>): (p: Point)
    ensures p.pos.Some?
    ensures Latitude(p) == lat && Longitude(p) == lon
  {
    Point(Some(Pos(lat, lon, [])))
  }

  /**
   * `GmlPoint(point)`: no pos for a null point; a pos holding the point's
   * coordinates otherwise, the point itself when it already is a pos.
   */
  function FromPoint(point: Option<PointValue>): (p: Point)
    ensures p.pos.Some? <==> point.Some?
    ensures point.Some? ==> Latitude(p) == LatOf(point.value) && Longitude(p) == LonOf(point.value)
    ensures point.Some? && point.value.PosValue? ==> p.pos == Some(point.value.pos)
  {
    match point
    case None => Point(None)
    case Some(PosValue(pos)) => Point(Some(pos))
    case Some(OtherPoint(lat, lon)) => Point(Some(Pos(lat, lon, [])))
  }

  /**
   * `setGeoLocation(lat, lon)`: with a pos, two nulls remove it and anything
   * else updates it; without one, a new pos is created unless both are null.
   */
  function SetGeoLocation(p: Point, lat: Option<Double>, lon: Option<Double>): (r: Point)
    ensures Latitude(r) == lat && Longitude(r) == lon
    ensures r.pos.Some? <==> lat.Some? || lon.Some?
    ensures p.pos.None? && lat.None? && lon.None? ==> r == p
    ensures p.pos.Some? && r.pos.Some? ==> r.pos.value.other == p.pos.value.other
    ensures p.pos.None? && r.pos.Some? ==> r.pos.value.other == []
  {
    if p.pos.Some? then
      if lat.None? && lon.None? then Point(None)
      else Point(Some(p.pos.value.(lat := lat, lon := lon)))
    else if lat.Some? || lon.Some? then
      Point(Some(Pos(lat, lon, [])))
    else
      p
  }

  /** Setting the same location twice is the same as setting it once. */
  lemma SetGeoLocationIdempotent(p: Point, lat: Option<Double>, lon: Option<Double>)
    ensures SetGeoLocation(SetGeoLocation(p, lat, lon), lat, lon) == SetGeoLocation(p, lat, lon)
  {
  }

  /** On a point built from coordinates, `setGeoLocation` acts as building it from the new ones, unless both are null. */
  lemma SetGeoLocationRebuilds(lat: Option<Double>, lon: Option<Double>, lat': Option<Double>, lon': Option<Double>)
    requires lat'.Some? || lon'.Some?
    ensures SetGeoLocation(FromCoordinates(lat, lon), lat', lon') == FromCoordinates(lat', lon')
  {
  }
}

=== FILE: java_string.dfy ===
/**
 * The few behaviours of `java.lang.String` the modelled code relies on:
 * `trim`, `indexOf`, string concatenation with a possibly-null left operand
 * (which renders null as the text "null") and the decimal rendering of a long.
 */
module JavaString {
  import opened Nullable

  // ---------------------------------------------------------------------------
  // trim()
  // ---------------------------------------------------------------------------

  /** `String.trim` treats every char whose code is at most U+0020 as blank. */
  predicate IsBlank(c: char) {
    c <= ' '
  }

  predicate AllBlank(s: string) {
    forall j :: 0 <= j < |s| ==> IsBlank(s[j])
  }

  /** Number of blank chars at the front of `s`. */
  function LeadingBlanks(s: string): (n: nat)
    ensures n <= |s|
    ensures AllBlank(s[..n])
    ensures n == |s| || !IsBlank(s[n])
  {
    if |s| > 0 && IsBlank(s[0]) then
      var n' := LeadingBlanks(s[1..]);
      assert s[..1 + n'] == [s[0]] + s[1..][..n'];
      1 + n'
    else
      0
  }

  /** Number of blank chars at the end of `s`. */
  function TrailingBlanks(s: string): (n: nat)
    ensures n <= |s|
    ensures AllBlank(s[|s| - n..])
    ensures n == |s| || !IsBlank(s[|s| - n - 1])
  {
    if |s| > 0 && IsBlank(s[|s| - 1]) then
      var t := s[..|s| - 1];
      var n' := TrailingBlanks(t);
      assert s[|s| - (1 + n')..] == t[|t| - n'..] + [s[|s| - 1]];
      1 + n'
    else
      0
  }

  /**
   * `String.trim`: the longest infix of `s` that neither starts nor ends with
   * a blank, obtained by dropping only blanks on either side.
   */
  function Trim(s: string): (r: string)
    ensures |r| <= |s|
    ensures exists a :: 0 <= a <= |s| - |r| && r == s[a..a + |r|] && AllBlank(s[..a]) && AllBlank(s[a + |r|..])
    ensures r == [] || (!IsBlank(r[0]) && !IsBlank(r[|r| - 1]))
  {
    var a := LeadingBlanks(s);
    var t := s[a..];
    var b := TrailingBlanks(t);
    var r := t[..|t| - b];
    assert r == s[a..a + |r|];
    assert s[a + |r|..] == t[|t| - b..];
    r
  }

  /** A string that already starts and ends with a non-blank is its own trim. */
  lemma TrimKeepsTrimmed(s: string)
    requires |s| > 0 && !IsBlank(s[0]) && !IsBlank(s[|s| - 1])
    ensures Trim(s) == s
  {
    assert LeadingBlanks(s) == 0;
    assert s[0..] == s;
  }

  /** A single blank in front of an already trimmed string is what trim removes. */
  lemma TrimDropsOneBlank(s: string)
    requires |s| > 0 && !IsBlank(s[0]) && !IsBlank(s[|s| - 1])
    ensures Trim([' '] + s) == s
  {
    var t := [' '] + s;
    assert t[1..] == s;
    assert LeadingBlanks(s) == 0;
    assert LeadingBlanks(t) == 1;
    assert t[1..] == s;
  }

  // ---------------------------------------------------------------------------
  // indexOf(String)
  // ---------------------------------------------------------------------------

  /** `sub` occurs in `s` starting at position `i`. */
  predicate OccursAt(s: string, sub: string, i: int) {
    0 <= i && i + |sub| <= |s| && s[i..i + |sub|] == sub
  }

  /**
   * The first occurrence of `sub` at or after `from`, or -1. It is used
   * with `from` = 0, where it agrees with `s.indexOf(sub)`.
   */
  function IndexOfFrom(s: string, sub: string, from: nat): (r: int)
    ensures r == -1 || (from <= r && OccursAt(s, sub, r))
    ensures r == -1 ==> forall i :: from <= i ==> !OccursAt(s, sub, i)
    ensures r != -1 ==> forall i :: from <= i < r ==> !OccursAt(s, sub, i)
    decreases |s| - from
  {
    if from + |sub| > |s| then
      -1
    else if s[from..from + |sub|] == sub then
      from
    else
      IndexOfFrom(s, sub, from + 1)
  }

  /** `s.indexOf(sub)`. */
  function IndexOf(s: string, sub: string): (r: int)
    ensures r == -1 <==> forall i :: !OccursAt(s, sub, i)
    ensures r != -1 ==> OccursAt(s, sub, r) && forall i :: i < r ==> !OccursAt(s, sub, i)
  {
    IndexOfFrom(s, sub, 0)
  }

  /** The test `s.indexOf(sub) > -1`. */
  predicate Contains(s: string, sub: string) {
    IndexOf(s, sub) > -1
  }

  // ---------------------------------------------------------------------------
  // String concatenation and long rendering
  // ---------------------------------------------------------------------------

  /** How Java renders a null reference inside a string concatenation. */
  const NullText: string := "null"

  /** `d + x` where `d` is a possibly-null `String`. */
  function Concat(d: Option<string>, x: string): string {
    d.GetOr(NullText) + x
  }

  predicate IsDigit(c: char) {
    '0' <= c <= '9'
  }

  function DigitChar(d: nat): (c: char)
    requires d < 10
    ensures IsDigit(c)
  {
    (48 + d) as char
  }

  function DigitValue(c: char): nat
    requires IsDigit(c)
  {
    (c as int) - 48
  }

  /** Decimal digits of `n`, most significant first, with no leading zero. */
  function Digits(n: nat): (r: string)
    ensures |r| >= 1
    ensures forall i :: 0 <= i < |r| ==> IsDigit(r[i])
    ensures |r| > 1 ==> r[0] != '0'
    ensures r[0] == '0' <==> n == 0
  {
    if n < 10 then [DigitChar(n)] else Digits(n / 10) + [DigitChar(n % 10)]
  }

  /** Value of a string of decimal digits (the empty string is 0). */
  function DigitsValue(s: string): nat
    requires forall i :: 0 <= i < |s| ==> IsDigit(s[i])
  {
    if s == [] then 0 else 10 * DigitsValue(s[..|s| - 1]) + DigitValue(s[|s| - 1])
  }

  /** `Long.toString(n)`, which is what `n + " "` renders for a long `n`. */
  function LongToString(n: int): (r: string)
    ensures |r| >= 1
    ensures n < 0 <==> r[0] == '-'
    ensures forall i :: 1 <= i < |r| ==> IsDigit(r[i])
    ensures var first := if n < 0 then 1 else 0;
            first < |r| && (|r| > first + 1 ==> r[first] != '0')
    ensures var first := if n < 0 then 1 else 0;
            first < |r| && (r[first] == '0' <==> n == 0)
  {
    if n < 0 then "-" + Digits(-n) else Digits(n)
  }

  /** A rendered long is a minus sign and digits, so it holds no space. */
  lemma LongToStringHasNoSpace(n: int)
    ensures forall i :: 0 <= i < |LongToString(n)| ==> LongToString(n)[i] != ' '
  {
    var s := LongToString(n);
    if n < 0 {
      assert forall i :: 1 <= i < |s| ==> s[i] == Digits(-n)[i - 1];
    }
  }

  /** Reads back a rendered long: an optional minus sign followed by digits. */
  function ParseLong(s: string): Option<int> {
    if |s| > 1 && s[0] == '-' && forall i :: 1 <= i < |s| ==> IsDigit(s[i]) then
      var magnitude: int := DigitsValue(s[1..]);
      Some(-magnitude)
    else if |s| > 0 && forall i :: 0 <= i < |s| ==> IsDigit(s[i]) then
      Some(DigitsValue(s))
    else
      None
  }

  lemma {:induction false} DigitsRoundTrip(n: nat)
    ensures DigitsValue(Digits(n)) == n
  {
    if n >= 10 {
      var s := Digits(n);
      DigitsRoundTrip(n / 10);
      assert s[..|s| - 1] == Digits(n / 10);
      assert s[|s| - 1] == DigitChar(n % 10);
    }
  }

  /** The decimal rendering of a long reads back as that long. */
  lemma LongToStringRoundTrip(n: int)
    ensures ParseLong(LongToString(n)) == Some(n)
  {
    var s := LongToString(n);
    if n < 0 {
      DigitsRoundTrip(-n);
      assert s[1..] == Digits(-n);
    } else {
      DigitsRoundTrip(n);
      assert s[0] != '-';
    }
  }
}

=== FILE: media_group.dfy ===
/**
 * A Media RSS `media:group`: an extension point holding at most one
 * extension of each singular kind (copyright, hash, keywords, player,
 * title, description) and an ordered list for each repeatable kind
 * (contents, categories, credits, ratings, thumbnails, texts,
 * restrictions). The extension kind plays the part of the extension's
 * class, by which the extension point indexes its children.
 */
module MediaGroup {
  import opened Nullable

  /** The kind of a Media RSS extension, one per extension class. */
  datatype Kind =
    | ContentKind | CategoryKind | CopyrightKind | CreditKind | HashKind | KeywordsKind | PlayerKind
    | RatingKind | ThumbnailKind | TextKind | RestrictionKind | TitleKind | DescriptionKind

  /** Kinds that may occur any number of times. */
  predicate Repeatable(k: Kind) {
    k in {ContentKind, CategoryKind, CreditKind, RatingKind, ThumbnailKind, TextKind, RestrictionKind}
  }

  /** XML attributes and text of an element whose contents the model does not inspect. */
  type Attributes = seq<(string, string)>

  /** A `media:category`; its scheme may be absent. */
  datatype MediaCategory = MediaCategory(scheme: Option<string>, categoryLabel: Option<string>, content: Option<string>)

  /** A `media:thumbnail`. */
  datatype Thumbnail = Thumbnail(url: Option<string>, width: int, height: int)

  /** One extension attached to the group. */
  datatype Element =
    | ContentElement(contentAttributes: Attributes)
    | CategoryElement(category: MediaCategory)
    | CopyrightElement(copyrightAttributes: Attributes)
    | CreditElement(creditAttributes: Attributes)
    | HashElement(hashAttributes: Attributes)
    | KeywordsElement(keywords: seq<string>)
    | PlayerElement(playerAttributes: Attributes)
    | RatingElement(ratingAttributes: Attributes)
    | ThumbnailElement(thumbnail: Thumbnail)
    | TextElement(textAttributes: Attributes)
    | RestrictionElement(restrictionAttributes: Attributes)
    | TitleElement(titleText: Option<string>)
    | DescriptionElement(plainText: Option<string>)

  /** The class of an extension, which decides the slot it goes to. */
  function KindOf(e: Element): Kind {
    match e
    case ContentElement(_) => ContentKind
    case CategoryElement(_) => CategoryKind
    case CopyrightElement(_) => CopyrightKind
    case CreditElement(_) => CreditKind
    case HashElement(_) => HashKind
    case KeywordsElement(_) => KeywordsKind
    case PlayerElement(_) => PlayerKind
    case RatingElement(_) => RatingKind
    case ThumbnailElement(_) => ThumbnailKind
    case TextElement(_) => TextKind
    case RestrictionElement(_) => RestrictionKind
    case TitleElement(_) => TitleKind
    case DescriptionElement(_) => DescriptionKind
  }

  /** The extension point: the singular slots and the repeating lists. */
  datatype Group = Group(singular: map<Kind, Element>, repeating: map<Kind, seq<Element>>)

  /** Every extension sits in the slot or list of its own kind. */
  ghost predicate Valid(g: Group) {
    && (forall k :: k in g.singular ==> !Repeatable(k) && KindOf(g.singular[k]) == k)
    && (forall k :: k in g.repeating ==> Repeatable(k) && forall e :: e in g.repeating[k] ==> KindOf(e) == k)
  }

  /** `getExtension(kind)`: the extension in a singular slot, or null. */
  function Get(g: Group, k: Kind): Option<Element> {
    if k in g.singular then Some(g.singular[k]) else None
  }

  /** `getRepeatingExtension(kind)`: the list of a repeatable kind, empty if none was added. */
  function GetList(g: Group, k: Kind): seq<Element> {
    if k in g.repeating then g.repeating[k] else []
  }

  /**
   * The singular setters (`setCopyright`, `setHash`, `setKeywords`,
   * `setPlayer`, `setTitle`, `setDescription`): null removes the
   * extension of that kind, anything else installs it.
   */
  function SetSingular(g: Group, k: Kind, v: Option<Element>): (r: Group)
    requires !Repeatable(k)
    requires v.Some? ==> KindOf(v.value) == k
    ensures Get(r, k) == v
    ensures forall k' :: k' != k ==> Get(r, k') == Get(g, k')
    ensures forall k' :: GetList(r, k') == GetList(g, k')
    ensures Valid(g) ==> Valid(r)
  {
    match v
    case None => g.(singular := g.singular - {k})
    case Some(e) => g.(singular := g.singular[k := e])
  }

  /**
   * The repeating adders (`addContent`, `addCategory`, `addCredit`,
   * `addRating`, `addThumbnail`, `addText`, `addRestriction`): append the
   * extension to the list of its kind.
   */
  function AddRepeating(g: Group, e: Element): (r: Group)
    requires Repeatable(KindOf(e))
    ensures GetList(r, KindOf(e)) == GetList(g, KindOf(e)) + [e]
    ensures forall k' :: k' != KindOf(e) ==> GetList(r, k') == GetList(g, k')
    ensures forall k' :: Get(r, k') == Get(g, k')
    ensures Valid(g) ==> Valid(r)
  {
    g.(repeating := g.repeating[KindOf(e) := GetList(g, KindOf(e)) + [e]])
  }

  /**
   * The repeating clearers (`clearContents`, `clearCategories`, ...,
   * `clearRestrictions`): empty the list of one kind.
   */
  function ClearRepeating(g: Group, k: Kind): (r: Group)
    requires Repeatable(k)
    ensures GetList(r, k) == []
    ensures forall k' :: k' != k ==> GetList(r, k') == GetList(g, k')
    ensures forall k' :: Get(r, k') == Get(g, k')
    ensures Valid(g) ==> Valid(r)
  {
    g.(repeating := g.repeating[k := []])
  }

  /** The categories attached, as `getCategories` lists them. */
  function Categories(g: Group): (r: seq<Element>)
    ensures Valid(g) ==> forall e :: e in r ==> e.CategoryElement?
  {
    GetList(g, CategoryKind)
  }

  /** `scheme` and the category's scheme are both null, or equal strings. */
  predicate SchemeMatches(e: Element, scheme: Option<string>) {
    e.CategoryElement? && e.category.scheme == scheme
  }

  /** The categories of `cs` whose scheme matches, collected into a set. */
  function CollectWithScheme(cs: seq<Element>, scheme: Option<string>): (r: set<MediaCategory>)
    ensures forall c :: c in r <==> CategoryElement(c) in cs && c.scheme == scheme
  {
    if cs == [] then {}
    else
      var rest := CollectWithScheme(cs[1..], scheme);
      assert forall e :: e in cs <==> e == cs[0] || e in cs[1..];
      if SchemeMatches(cs[0], scheme) then {cs[0].category} + rest else rest
  }

  /**
   * `getCategoriesWithScheme(scheme)`: the categories whose scheme equals
   * `scheme`, or, for a null `scheme`, those with no scheme; never null.
   */
  function CategoriesWithScheme(g: Group, scheme: Option<string>): (r: set<MediaCategory>)
    ensures forall c :: c in r <==> CategoryElement(c) in Categories(g) && c.scheme == scheme
  {
    CollectWithScheme(Categories(g), scheme)
  }

  /** The thumbnails attached, in the order they were added. */
  function Thumbnails(g: Group): (r: seq<Thumbnail>)
    ensures Valid(g) ==> |r| == |GetList(g, ThumbnailKind)|
  {
    ThumbnailsOf(GetList(g, ThumbnailKind))
  }

  function ThumbnailsOf(es: seq<Element>): (r: seq<Thumbnail>)
    ensures |r| <= |es|
    ensures (forall e :: e in es ==> e.ThumbnailElement?) ==> |r| == |es|
    ensures forall t :: t in r <==> ThumbnailElement(t) in es
  {
    if es == [] then []
    else
      var rest := ThumbnailsOf(es[1..]);
      assert forall e :: e in es <==> e == es[0] || e in es[1..];
      if es[0].ThumbnailElement? then [es[0].thumbnail] + rest else rest
  }

  /** The plain text of the description extension, or null if absent. */
  function DescriptionText(g: Group): (r: Option<string>)
    ensures Get(g, DescriptionKind).None? ==> r.None?
    ensures r.Some? ==> Get(g, DescriptionKind) == Some(DescriptionElement(r))
  {
    match Get(g, DescriptionKind)
    case Some(DescriptionElement(text)) => text
    case _ => None
  }

  /** Setting a slot twice keeps only the second value. */
  lemma SetSingularOverwrites(g: Group, k: Kind, v: Option<Element>, w: Option<Element>)
    requires !Repeatable(k)
    requires v.Some? ==> KindOf(v.value) == k
    requires w.Some? ==> KindOf(w.value) == k
    ensures SetSingular(SetSingular(g, k, v), k, w) == SetSingular(g, k, w)
  {
  }

  /** Setters for different kinds commute. */
  lemma SetSingularCommutes(g: Group, k: Kind, v: Option<Element>, k': Kind, w: Option<Element>)
    requires !Repeatable(k) && !Repeatable(k') && k != k'
    requires v.Some? ==> KindOf(v.value) == k
    requires w.Some? ==> KindOf(w.value) == k'
    ensures SetSingular(SetSingular(g, k, v), k', w) == SetSingular(SetSingular(g, k', w), k, v)
  {
    var a := SetSingular(SetSingular(g, k, v), k', w);
    var b := SetSingular(SetSingular(g, k', w), k, v);
    assert a.singular.Keys == b.singular.Keys;
    assert forall q :: q in a.singular ==> a.singular[q] == b.singular[q];
  }

  /** `setDescription(d)` then `getDescription()` gives back the text of `d`, and null for null. */
  lemma DescriptionReadsBack(g: Group, text: Option<string>, present: bool)
    ensures var v := if present then Some(DescriptionElement(text)) else None;
            DescriptionText(SetSingular(g, DescriptionKind, v)) == if present then text else None
  {
  }

  /** A thumbnail added to a well-formed group is its last thumbnail. */
  lemma AddedThumbnailIsLast(g: Group, t: Thumbnail)
    requires Valid(g)
    ensures var r := Thumbnails(AddRepeating(g, ThumbnailElement(t)));
            |r| == |Thumbnails(g)| + 1 && r[|r| - 1] == t
  {
    var es := GetList(g, ThumbnailKind);
    ThumbnailsAppend(es, [ThumbnailElement(t)]);
  }

  lemma {:induction false} ThumbnailsAppend(a: seq<Element>, b: seq<Element>)
    ensures ThumbnailsOf(a + b) == ThumbnailsOf(a) + ThumbnailsOf(b)
  {
    if a == [] {
      assert a + b == b;
    } else {
      assert (a + b)[1..] == a[1..] + b;
      ThumbnailsAppend(a[1..], b);
    }
  }
}

=== FILE: nullable.dfy ===
/** Java references that may be null, modelled as an option. */
module Nullable {

  /** `None` stands for Java's `null`; `Some(v)` for a non-null reference to `v`. */
  datatype Option<+T> = None | Some(value: T) {

    /** The wrapped value, or `default` for null. */
    function GetOr(default: T): T {
      match this
      case Some(v) => v
      case None => default
    }
  }
}

=== FILE: paging.dfy ===
/**
 * The result panel's paging arithmetic. A page-change event carries a page
 * number; the panel re-queries with start index `(page - 1) * itemsPerPage
 * + 1`, taking both operands to be Java `int`s and computing in `int`
 * arithmetic, and keeps the items per page of the page it is showing.
 */
module Paging {

  const MinInt: int := -0x8000_0000
  const MaxInt: int := 0x7fff_ffff
  /** The number of distinct Java `int` values. */
  const Modulus: int := 0x1_0000_0000

  predicate InInt32(x: int) {
    MinInt <= x <= MaxInt
  }

  /** A Java `int`. */
  type Int32 = x: int | MinInt <= x <= MaxInt

  /** The Java `int` that `x` wraps around to: congruent to `x` and equal to it when it fits. */
  function Wrap(x: int): (r: Int32)
    ensures (r - x) % Modulus == 0
    ensures InInt32(x) ==> r == x
  {
    var r := ((x - MinInt) % Modulus) + MinInt;
    assert r - x == ((x - MinInt) % Modulus) - (x - MinInt);
    assert (x - MinInt) == ((x - MinInt) / Modulus) * Modulus + (x - MinInt) % Modulus;
    MultipleMod(-((x - MinInt) / Modulus));
    r
  }

  lemma MultipleMod(k: int)
    ensures (k * Modulus) % Modulus == 0
  {
  }

  /** Two Java `int`s that are congruent modulo 2^32 are equal. */
  lemma CongruentInt32(a: int, b: int)
    requires InInt32(a) && InInt32(b)
    requires (a - b) % Modulus == 0
    ensures a == b
  {
    var d := a - b;
    assert d == (d / Modulus) * Modulus;
    assert -Modulus < d < Modulus;
  }

  /** Wrapping before a multiplication does not change the product's wrap. */
  lemma WrapTimes(a: int, b: int)
    ensures (Wrap(a) * b - a * b) % Modulus == 0
  {
    var k := (Wrap(a) - a) / Modulus;
    assert Wrap(a) - a == k * Modulus;
    assert Wrap(a) * b - a * b == (Wrap(a) - a) * b;
    assert (Wrap(a) - a) * b == (k * b) * Modulus;
    MultipleMod(k * b);
  }

  /** Congruence modulo 2^32 chains. */
  lemma CongruentTrans(a: int, b: int, c: int)
    requires (a - b) % Modulus == 0 && (b - c) % Modulus == 0
    ensures (a - c) % Modulus == 0
  {
    var k := (a - b) / Modulus;
    var l := (b - c) / Modulus;
    assert a - b == k * Modulus;
    assert b - c == l * Modulus;
    assert a - c == (k + l) * Modulus;
    MultipleMod(k + l);
  }

  /** A page descriptor: start index, items per page and total count of the results. */
  datatype QueryPage = QueryPage(startIndex: Int32, itemsPerPage: Int32, totalResults: Int32)

  /** The start index the page exactly asks for, before any wrap-around. */
  function ExactStartIndex(page: int, itemsPerPage: int): int {
    (page - 1) * itemsPerPage + 1
  }

  /**
   * `(page - 1) * itemsPerPage + 1` in Java `int` arithmetic: each step
   * wraps, and the result is the exact value whenever that fits.
   */
  function StartIndex(page: Int32, itemsPerPage: Int32): (r: Int32)
    ensures (r - ExactStartIndex(page, itemsPerPage)) % Modulus == 0
    ensures InInt32(ExactStartIndex(page, itemsPerPage)) ==> r == ExactStartIndex(page, itemsPerPage)
  {
    var r := Wrap(Wrap(Wrap(page - 1) * itemsPerPage) + 1);
    WrappedStepsCongruent(page, itemsPerPage);
    if InInt32(ExactStartIndex(page, itemsPerPage)) then
      CongruentInt32(r, ExactStartIndex(page, itemsPerPage));
      r
    else
      r
  }

  /** The three wrapped steps of the start index agree with the exact value modulo 2^32. */
  lemma WrappedStepsCongruent(page: int, itemsPerPage: int)
    ensures (Wrap(Wrap(Wrap(page - 1) * itemsPerPage) + 1) - ExactStartIndex(page, itemsPerPage)) % Modulus == 0
  {
    var previous := Wrap(page - 1);
    var product := Wrap(previous * itemsPerPage);
    var r := Wrap(product + 1);
    var exact := ExactStartIndex(page, itemsPerPage);
    WrapTimes(page - 1, itemsPerPage);
    CongruentTrans(product, previous * itemsPerPage, (page - 1) * itemsPerPage);
    assert (product + 1 - exact) % Modulus == 0;
    CongruentTrans(r, product + 1, exact);
  }

  /**
   * The query a page-change event to `pageIndex` issues while `current` is
   * shown: the page's start index, the same items per page, and the total
   * of the feed shown.
   */
  function NextQuery(pageIndex: Int32, current: QueryPage, totalResults: Int32): (r: QueryPage)
    ensures r.itemsPerPage == current.itemsPerPage
    ensures r.totalResults == totalResults
    ensures (r.startIndex - ExactStartIndex(pageIndex, current.itemsPerPage)) % Modulus == 0
    ensures InInt32(ExactStartIndex(pageIndex, current.itemsPerPage)) ==>
              r.startIndex == ExactStartIndex(pageIndex, current.itemsPerPage)
  {
    QueryPage(StartIndex(pageIndex, current.itemsPerPage), current.itemsPerPage, totalResults)
  }

  /** Page 1 starts at index 1, whatever the page size. */
  lemma FirstPageStartsAtOne(itemsPerPage: Int32)
    ensures StartIndex(1, itemsPerPage) == 1
  {
  }

  /** Without overflow, consecutive pages start `itemsPerPage` apart. */
  lemma ConsecutivePages(page: Int32, itemsPerPage: Int32)
    requires page < MaxInt
    requires InInt32(ExactStartIndex(page, itemsPerPage)) && InInt32(ExactStartIndex(page + 1, itemsPerPage))
    ensures StartIndex(page + 1, itemsPerPage) == StartIndex(page, itemsPerPage) + itemsPerPage
  {
    assert ExactStartIndex(page + 1, itemsPerPage) == ExactStartIndex(page, itemsPerPage) + itemsPerPage;
  }

  /** Without overflow, a positive page of a non-negative size starts at index 1 or later. */
  lemma StartIndexAtLeastOne(page: Int32, itemsPerPage: Int32)
    requires page >= 1 && itemsPerPage >= 0
    requires InInt32(ExactStartIndex(page, itemsPerPage))
    ensures StartIndex(page, itemsPerPage) >= 1
  {
    assert (page - 1) * itemsPerPage >= 0;
  }

  /** Without overflow, the page number is recovered from its start index. */
  lemma PageFromStartIndex(page: Int32, itemsPerPage: Int32)
    requires page >= 1 && itemsPerPage > 0
    requires InInt32(ExactStartIndex(page, itemsPerPage))
    ensures (StartIndex(page, itemsPerPage) - 1) / itemsPerPage + 1 == page
  {
    assert StartIndex(page, itemsPerPage) - 1 == (page - 1) * itemsPerPage;
    DivideMultiple(page - 1, itemsPerPage);
  }

  lemma DivideMultiple(q: int, d: int)
    requires d > 0
    ensures (q * d) / d == q
  {
    var x := q * d;
    assert x == (x / d) * d + x % d;
    assert (q - x / d) * d == x % d;
    ProductBound(q - x / d, d);
  }

  lemma ProductBound(e: int, d: int)
    requires d > 0
    ensures e >= 1 ==> e * d >= d
    ensures e <= -1 ==> e * d <= -d
  {
  }

  /** No guard keeps the start index positive: page 0 starts `itemsPerPage - 1` below index 0. */
  lemma PageZeroStartsBelowOne(itemsPerPage: Int32)
    requires itemsPerPage > 0
    ensures StartIndex(0, itemsPerPage) == 1 - itemsPerPage
    ensures StartIndex(0, itemsPerPage) < 1
  {
  }

  /** Far enough pages wrap around to a negative start index. */
  lemma FarPageWrapsNegative()
    ensures StartIndex(50_000_000, 50) == -1_794_967_345
  {
    assert ExactStartIndex(50_000_000, 50) == 2_499_999_951;
    assert StartIndex(50_000_000, 50) - 2_499_999_951 == -Modulus;
  }
}

=== FILE: search_result.dfy ===
/**
 * The search-result adapter: flattens a fetched video entry into the plain
 * record the result panel displays (video id, thumbnail URL, title,
 * description, author names, upload date, view count).
 */
module YouTubeSearchResult {
  import opened Nullable
  import JavaString
  import Source
  import MediaGroup

  /** The YouTube media group: a media group with a video id. */
  datatype YouTubeMediaGroup = YouTubeMediaGroup(videoId: Option<string>, group: MediaGroup.Group)

  /** The statistics extension of a video entry. */
  datatype Statistics = Statistics(viewCount: int)

  /**
   * A fetched video entry. `categories` lists the entry's category set in
   * the order its iterator yields them.
   */
  datatype VideoEntry = VideoEntry(
    mediaGroup: Option<YouTubeMediaGroup>,
    title: Option<Source.TextConstruct>,
    categories: Option<seq<Option<Source.Category>>>,
    authors: Option<seq<Source.Person>>,
    updated: Option<Source.DateTime>,
    statistics: Option<Statistics>)

  /** The display record. */
  datatype SearchResult = SearchResult(
    videoId: Option<string>,
    thumbnailUrl: Option<string>,
    title: Option<string>,
    description: Option<string>,
    authors: set<Option<string>>,
    uploadDate: Option<Source.DateTime>,
    viewCount: int)

  // ---------------------------------------------------------------------------
  // Largest thumbnail
  // ---------------------------------------------------------------------------

  /** `ts[k]` is at least as wide as every thumbnail and strictly wider than every earlier one. */
  ghost predicate IsFirstWidest(ts: seq<MediaGroup.Thumbnail>, k: int) {
    && 0 <= k < |ts|
    && (forall j :: 0 <= j < |ts| ==> ts[j].width <= ts[k].width)
    && (forall j :: 0 <= j < k ==> ts[j].width < ts[k].width)
  }

  /**
   * The position the scan of `ts[..n]` settles on: it replaces its choice
   * only by a strictly wider thumbnail.
   */
  function WidestIndex(ts: seq<MediaGroup.Thumbnail>, n: nat): (k: nat)
    requires 0 < n <= |ts|
    ensures k < n
    ensures forall j :: 0 <= j < n ==> ts[j].width <= ts[k].width
    ensures forall j :: 0 <= j < k ==> ts[j].width < ts[k].width
  {
    if n == 1 then 0
    else
      var k := WidestIndex(ts, n - 1);
      if ts[k].width < ts[n - 1].width then n - 1 else k
  }

  /**
   * `getLargestThumbnail`: null for a null or empty list, otherwise the
   * widest thumbnail, the first one on ties.
   */
  function LargestThumbnail(ts: Option<seq<MediaGroup.Thumbnail>>): (r: Option<MediaGroup.Thumbnail>)
    ensures r.None? <==> ts.None? || |ts.value| == 0
    ensures r.Some? ==> exists k :: IsFirstWidest(ts.value, k) && ts.value[k] == r.value
  {
    if ts.None? || |ts.value| == 0 then
      None
    else
      var k := WidestIndex(ts.value, |ts.value|);
      assert IsFirstWidest(ts.value, k);
      Some(ts.value[k])
  }

  /**
   * The first widest thumbnail is unique, so whichever position has that
   * property is the one `getLargestThumbnail` returns.
   */
  lemma LargestIsFirstWidest(ts: seq<MediaGroup.Thumbnail>, k: int)
    requires IsFirstWidest(ts, k)
    ensures LargestThumbnail(Some(ts)) == Some(ts[k])
  {
  }

  // ---------------------------------------------------------------------------
  // Description fallback
  // ---------------------------------------------------------------------------

  /** The text a category scheme must contain for its term to count as a keyword. */
  const KeywordsMarker: string := "keywords"

  /** A non-null category whose scheme contains "keywords" and whose term is non-empty. */
  predicate IsKeywordCategory(c: Option<Source.Category>) {
    && c.Some?
    && c.value.scheme.Some?
    && JavaString.Contains(c.value.scheme.value, KeywordsMarker)
    && c.value.term.Some?
    && |c.value.term.value| > 0
  }

  /** The term a category contributes to the description: its term if it is a keyword category, null otherwise. */
  function KeywordTerm(c: Option<Source.Category>): (r: Option<string>)
    ensures r.Some? <==> IsKeywordCategory(c)
    ensures r.Some? ==> r == c.value.term && |r.value| > 0
  {
    if IsKeywordCategory(c) then c.value.term else None
  }

  /** What each category of the iteration contributes, in iteration order. */
  function Candidates(cs: seq<Option<Source.Category>>): (r: seq<Option<string>>)
    ensures |r| == |cs|
    ensures forall i :: 0 <= i < |cs| ==> r[i] == KeywordTerm(cs[i])
  {
    seq(|cs|, i requires 0 <= i < |cs| => KeywordTerm(cs[i]))
  }

  /** The non-null entries of `ts`, in order. */
  function Present(ts: seq<Option<string>>): (r: seq<string>)
    ensures |r| <= |ts|
    ensures forall t :: t in r <==> Some(t) in ts
  {
    if ts == [] then []
    else
      var rest := Present(ts[1..]);
      assert forall o :: o in ts <==> o == ts[0] || o in ts[1..];
      if ts[0].Some? then [ts[0].value] + rest else rest
  }

  /** Taking the non-null entries distributes over concatenation, so their order is kept. */
  lemma {:induction false} PresentAppend(a: seq<Option<string>>, b: seq<Option<string>>)
    ensures Present(a + b) == Present(a) + Present(b)
  {
    if a == [] {
      assert a + b == b;
    } else {
      assert (a + b)[1..] == a[1..] + b;
      PresentAppend(a[1..], b);
    }
  }

  /** The terms of the keyword categories, in iteration order. */
  function KeywordTerms(cs: seq<Option<Source.Category>>): (r: seq<string>)
    ensures |r| <= |cs|
    ensures forall t :: t in r ==> |t| > 0
  {
    Present(Candidates(cs))
  }

  /** The text appended for one keyword: a space and the quoted term. */
  function Quote(term: string): string {
    " \"" + term + "\""
  }

  /** The quoted terms one after the other. */
  function QuotedTerms(terms: seq<string>): string {
    if terms == [] then "" else Quote(terms[0]) + QuotedTerms(terms[1..])
  }

  /**
   * The category loop over the contributions `ts`: each keyword term does
   * `description += " \"" + term + "\""`, which renders a null description
   * as "null".
   */
  function AppendKeywords(d: Option<string>, ts: seq<Option<string>>): (r: Option<string>)
    ensures d.Some? ==> r.Some?
    ensures Present(ts) == [] ==> r == d
    ensures Present(ts) != [] ==> r.Some?
    decreases |ts|
  {
    if ts == [] then d
    else
      var d' := if ts[0].Some? then Some(JavaString.Concat(d, Quote(ts[0].value))) else d;
      AppendKeywords(d', ts[1..])
  }

  /** Appending `x` then `y` to a rendering is appending `x + y`. */
  lemma ConcatTwice(d: Option<string>, x: string, y: string)
    ensures JavaString.Concat(Some(JavaString.Concat(d, x)), y) == JavaString.Concat(d, x + y)
  {
    if d.Some? {
      assert d.value + x + y == d.value + (x + y);
    } else {
      assert JavaString.NullText + x + y == JavaString.NullText + (x + y);
    }
  }

  /** The loop leaves `d` alone without keywords; otherwise it appends all quoted keywords to `d`'s rendering. */
  lemma {:induction false} AppendKeywordsAppends(d: Option<string>, ts: seq<Option<string>>)
    ensures AppendKeywords(d, ts) ==
            if Present(ts) == [] then d else Some(JavaString.Concat(d, QuotedTerms(Present(ts))))
    decreases |ts|
  {
    if ts != [] {
      var rest := Present(ts[1..]);
      if ts[0].Some? {
        var term := ts[0].value;
        var d' := Some(JavaString.Concat(d, Quote(term)));
        AppendKeywordsAppends(d', ts[1..]);
        assert Present(ts) == [term] + rest;
        assert ([term] + rest)[1..] == rest;
        assert QuotedTerms(Present(ts)) == Quote(term) + QuotedTerms(rest);
        if rest == [] {
          assert Quote(term) + QuotedTerms(rest) == Quote(term);
        } else {
          ConcatTwice(d, Quote(term), QuotedTerms(rest));
        }
      } else {
        AppendKeywordsAppends(d, ts[1..]);
      }
    }
  }

  /** The quoted terms start with a space and end with a quote. */
  lemma {:induction false} QuotedTermsShape(terms: seq<string>)
    requires terms != []
    ensures var q := QuotedTerms(terms); |q| >= 3 && q[0] == ' ' && q[1] == '"' && q[|q| - 1] == '"'
  {
    if terms[1..] != [] {
      QuotedTermsShape(terms[1..]);
    }
  }

  /** Trimming `null` followed by quoted terms removes nothing. */
  lemma TrimNullQuoted(terms: seq<string>)
    requires terms != []
    ensures JavaString.Trim(JavaString.NullText + QuotedTerms(terms)) == JavaString.NullText + QuotedTerms(terms)
  {
    var q := QuotedTerms(terms);
    QuotedTermsShape(terms);
    var text := JavaString.NullText + q;
    assert text[|text| - 1] == q[|q| - 1];
    JavaString.TrimKeepsTrimmed(text);
  }

  /** Trimming the quoted terms removes exactly their leading space. */
  lemma TrimQuoted(terms: seq<string>)
    requires terms != []
    ensures var q := QuotedTerms(terms); " " + JavaString.Trim(q) == q
  {
    var q := QuotedTerms(terms);
    QuotedTermsShape(terms);
    assert q == [' '] + q[1..];
    JavaString.TrimDropsOneBlank(q[1..]);
  }

  /**
   * The fallback description as written: null when there are no categories
   * or none is a keyword category; otherwise the quoted keywords after the
   * text "null" (the loop starts from a null description), then trimmed,
   * which removes nothing.
   */
  function KeywordDescription(cats: Option<seq<Option<Source.Category>>>): (r: Option<string>)
    ensures r.None? <==> cats.None? || KeywordTerms(cats.value) == []
    ensures r.Some? ==> r.value == JavaString.NullText + QuotedTerms(KeywordTerms(cats.value))
  {
    if cats.None? || |cats.value| == 0 then
      None
    else
      var ts := Candidates(cats.value);
      var d := AppendKeywords(None, ts);
      AppendKeywordsAppends(None, ts);
      if d.Some? then
        TrimNullQuoted(Present(ts));
        Some(JavaString.Trim(d.value))
      else
        None
  }

  /**
   * The fallback description as evidently intended: the quoted keywords
   * separated by single spaces, with no "null" in front; null when there is
   * no keyword.
   */
  function IntendedKeywordDescription(cats: Option<seq<Option<Source.Category>>>): (r: Option<string>)
    ensures r.None? <==> cats.None? || KeywordTerms(cats.value) == []
    ensures r.Some? ==> " " + r.value == QuotedTerms(KeywordTerms(cats.value))
  {
    if cats.None? || |cats.value| == 0 then
      None
    else
      var ts := Candidates(cats.value);
      if Present(ts) == [] then
        None
      else
        var d := AppendKeywords(Some(""), ts);
        AppendKeywordsAppends(Some(""), ts);
        var q := QuotedTerms(Present(ts));
        assert "" + q == q;
        TrimQuoted(Present(ts));
        Some(JavaString.Trim(d.value))
  }

  /** The description as written is the intended one with "null " in front, and null exactly when that is. */
  lemma AsWrittenHasNullPrefix(cats: Option<seq<Option<Source.Category>>>)
    ensures KeywordDescription(cats).Some? <==> IntendedKeywordDescription(cats).Some?
    ensures KeywordDescription(cats).Some? ==>
              KeywordDescription(cats).value == JavaString.NullText + " " + IntendedKeywordDescription(cats).value
  {
    if KeywordDescription(cats).Some? {
      var i := IntendedKeywordDescription(cats).value;
      assert JavaString.NullText + " " + i == JavaString.NullText + (" " + i);
    }
  }

  /** One keyword category "cat" yields `null "cat"` as written and `"cat"` as intended. */
  lemma NullPrefixWitness()
    ensures var cats := Some([Some(Source.Category(Some("keywords"), Some("cat"), None))]);
            && KeywordDescription(cats) == Some("null \"cat\"")
            && IntendedKeywordDescription(cats) == Some("\"cat\"")
  {
    var cats := Some([Some(Source.Category(Some("keywords"), Some("cat"), None))]);
    var c := cats.value[0];
    assert JavaString.OccursAt("keywords", KeywordsMarker, 0);
    assert IsKeywordCategory(c);
    var ts := Candidates(cats.value);
    assert ts == [Some("cat")];
    assert ts[1..] == [];
    assert Present(ts) == ["cat"];
    var q := QuotedTerms(["cat"]);
    assert ["cat"][1..] == [];
    assert q == " \"cat\"";
    assert JavaString.NullText + q == "null \"cat\"";
    assert " " + "\"cat\"" == q;
    var i := IntendedKeywordDescription(cats);
    assert " " + i.value == q;
    assert i.value == q[1..];
  }

  // ---------------------------------------------------------------------------
  // Authors, view count and the whole record
  // ---------------------------------------------------------------------------

  /** The names of the persons, null names included, duplicates collapsed. */
  function AuthorNames(persons: Option<seq<Source.Person>>): (r: set<Option<string>>)
    ensures persons.None? ==> r == {}
    ensures persons.Some? ==> |r| <= |persons.value|
    ensures persons.Some? ==> forall n :: n in r <==> exists p :: p in persons.value && p.name == n
  {
    if persons.None? then {} else NamesOf(persons.value)
  }

  function NamesOf(ps: seq<Source.Person>): (r: set<Option<string>>)
    ensures |r| <= |ps|
    ensures forall n :: n in r <==> exists p :: p in ps && p.name == n
  {
    if ps == [] then {}
    else
      var rest := NamesOf(ps[1..]);
      assert forall p :: p in ps <==> p == ps[0] || p in ps[1..];
      {ps[0].name} + rest
  }

  /** The plain text of the media group's description, null if any link of the chain is missing. */
  function MediaDescription(e: VideoEntry): Option<string> {
    if e.mediaGroup.Some? then MediaGroup.DescriptionText(e.mediaGroup.value.group) else None
  }

  /** The widest thumbnail of the media group, if any. */
  function WidestThumbnailOf(e: VideoEntry): Option<MediaGroup.Thumbnail> {
    if e.mediaGroup.Some? then LargestThumbnail(Some(MediaGroup.Thumbnails(e.mediaGroup.value.group))) else None
  }

  /** The `YouTubeSearchResult(entry)` constructor. */
  function FromEntry(e: VideoEntry): (r: SearchResult)
    ensures r.videoId == if e.mediaGroup.Some? then e.mediaGroup.value.videoId else None
    ensures WidestThumbnailOf(e).None? ==> r.thumbnailUrl.None?
    ensures WidestThumbnailOf(e).Some? ==> r.thumbnailUrl == WidestThumbnailOf(e).value.url
    ensures e.title.None? ==> r.title.None?
    ensures e.title.Some? ==> r.title == e.title.value.plainText
    ensures MediaDescription(e).Some? ==> r.description == MediaDescription(e)
    ensures MediaDescription(e).None? ==> r.description == KeywordDescription(e.categories)
    ensures r.authors == AuthorNames(e.authors)
    ensures r.uploadDate == e.updated
    ensures e.statistics.None? ==> r.viewCount == 0
    ensures e.statistics.Some? ==> r.viewCount == e.statistics.value.viewCount
  {
    var videoId := if e.mediaGroup.Some? then e.mediaGroup.value.videoId else None;
    var thumbnail := WidestThumbnailOf(e);
    var thumbnailUrl := if thumbnail.Some? then thumbnail.value.url else None;
    var description := MediaDescription(e);
    var title := if e.title.Some? then e.title.value.plainText else None;
    var description := if description.None? then KeywordDescription(e.categories) else description;
    var viewCount := if e.statistics.Some? then e.statistics.value.viewCount else 0;
    SearchResult(videoId, thumbnailUrl, title, description, AuthorNames(e.authors), e.updated, viewCount)
  }

  /**
   * The constructor with the corrected keyword fallback: every field as
   * `FromEntry` sets it, except that a fallback description lacks the
   * "null " in front.
   */
  function IntendedFromEntry(e: VideoEntry): (r: SearchResult)
    ensures r.(description := None) == FromEntry(e).(description := None)
    ensures MediaDescription(e).Some? ==> r.description == MediaDescription(e)
    ensures MediaDescription(e).None? ==> r.description == IntendedKeywordDescription(e.categories)
    ensures r.description.Some? <==> FromEntry(e).description.Some?
    ensures MediaDescription(e).None? && r.description.Some? ==>
              FromEntry(e).description.value == JavaString.NullText + " " + r.description.value
  {
    var asWritten := FromEntry(e);
    AsWrittenHasNullPrefix(e.categories);
    if MediaDescription(e).Some? then asWritten
    else asWritten.(description := IntendedKeywordDescription(e.categories))
  }

  /** A media description makes the categories irrelevant to the description. */
  lemma DescriptionIgnoresCategories(e: VideoEntry, cats: Option<seq<Option<Source.Category>>>)
    requires MediaDescription(e).Some?
    ensures FromEntry(e.(categories := cats)).description == FromEntry(e).description
  {
  }

  /** Entries listing the same names in any order, with any repetition, get the same author set. */
  lemma AuthorsIgnoreOrderAndDuplicates(e: VideoEntry, persons: seq<Source.Person>)
    requires e.authors.Some?
    requires forall p :: p in persons <==> p in e.authors.value
    ensures FromEntry(e.(authors := Some(persons))).authors == FromEntry(e).authors
  {
    var a := FromEntry(e.(authors := Some(persons))).authors;
    var b := FromEntry(e).authors;
    assert forall n :: n in a <==> n in b;
  }
}

=== FILE: source.dfy ===
/**
 * Feed-level metadata shared by feeds and entries: id, timestamps, text
 * constructs, links, people and the generator, kept in one state record
 * that several views of the same logical source may share.
 */
module Source {
  import opened Nullable

  /** A timestamp; only stored and handed back, never computed with. */
  datatype DateTime = DateTime(instant: int)

  /** An Atom text construct, seen through its plain-text rendering. */
  datatype TextConstruct = TextConstruct(plainText: Option<string>)

  /** An Atom category. */
  datatype Category = Category(scheme: Option<string>, term: Option<string>, displayLabel: Option<string>)

  /** An Atom person (author or contributor). */
  datatype Person = Person(name: Option<string>, uri: Option<string>, email: Option<string>)

  /** The software that generated the feed. */
  datatype Generator = Generator(version: Option<string>, uri: Option<string>, name: Option<string>)

  /** An Atom link; a fresh `Link()` has every attribute null. */
  datatype Link = Link(rel: Option<string>, linkType: Option<string>, href: Option<string>,
                       hrefLang: Option<string>, title: Option<string>)

  /**
   * `link.matches(rel, type)`: the test a link applies to a requested rel
   * and type, either of which may be null. Its rules are the link's own and
   * are a parameter here.
   */
  type Matcher = (Link, Option<string>, Option<string>) -> bool

  /** The `rel` value of a link to an alternate representation. */
  const AlternateRel: string := "alternate"

  /** The `type` value of a link to an HTML representation. */
  const HtmlType: string := "text/html"

  /** All the metadata of a source. */
  datatype SourceState = SourceState(
    id: Option<string>,
    updated: Option<DateTime>,
    categories: set<Category>,
    title: Option<TextConstruct>,
    subtitle: Option<TextConstruct>,
    rights: Option<TextConstruct>,
    icon: Option<string>,
    logo: Option<string>,
    links: seq<Link>,
    authors: seq<Person>,
    contributors: seq<Person>,
    generator: Option<Generator>)

  /** The state of `new Source()`: null scalars, empty collections. */
  const EmptyState: SourceState :=
    SourceState(None, None, {}, None, None, None, None, None, [], [], [], None)

  // ---------------------------------------------------------------------------
  // Link lists
  // ---------------------------------------------------------------------------

  /** `links[j]` matches and no earlier link does. */
  ghost predicate IsFirstMatch(links: seq<Link>, m: Matcher, rel: Option<string>, t: Option<string>, j: int)
  {
    0 <= j < |links| && m(links[j], rel, t) &&
    forall i :: 0 <= i < j ==> !m(links[i], rel, t)
  }

  /** `getLink(rel, type)`: the first matching link in list order, or null. */
  function FirstMatch(links: seq<Link>, m: Matcher, rel: Option<string>, t: Option<string>): (r: Option<Link>)
    ensures r.None? <==> forall i :: 0 <= i < |links| ==> !m(links[i], rel, t)
    ensures r.Some? ==> exists j :: IsFirstMatch(links, m, rel, t, j) && links[j] == r.value
  {
    if links == [] then
      None
    else if m(links[0], rel, t) then
      assert IsFirstMatch(links, m, rel, t, 0);
      Some(links[0])
    else
      var r := FirstMatch(links[1..], m, rel, t);
      assert r.Some? ==> exists j :: IsFirstMatch(links, m, rel, t, j) && links[j] == r.value by {
        if r.Some? {
          var j :| IsFirstMatch(links[1..], m, rel, t, j) && links[1..][j] == r.value;
          assert IsFirstMatch(links, m, rel, t, j + 1);
        }
      }
      r
  }

  /** `getLinks(rel, type)`: the matching links, in list order. */
  function Matching(links: seq<Link>, m: Matcher, rel: Option<string>, t: Option<string>): (r: seq<Link>)
    ensures |r| <= |links|
    ensures forall l :: l in r <==> l in links && m(l, rel, t)
  {
    if links == [] then []
    else if m(links[0], rel, t) then [links[0]] + Matching(links[1..], m, rel, t)
    else Matching(links[1..], m, rel, t)
  }

  /** `removeLinks(rel, type)`: the links left after removing every match, in list order. */
  function NonMatching(links: seq<Link>, m: Matcher, rel: Option<string>, t: Option<string>): (r: seq<Link>)
    ensures |r| <= |links|
    ensures forall l :: l in r <==> l in links && !m(l, rel, t)
  {
    if links == [] then []
    else if m(links[0], rel, t) then NonMatching(links[1..], m, rel, t)
    else [links[0]] + NonMatching(links[1..], m, rel, t)
  }

  /** Selecting the matches of a concatenation selects them from each part, keeping order. */
  lemma {:induction false} MatchingAppend(a: seq<Link>, b: seq<Link>, m: Matcher, rel: Option<string>, t: Option<string>)
    ensures Matching(a + b, m, rel, t) == Matching(a, m, rel, t) + Matching(b, m, rel, t)
  {
    if a == [] {
      assert a + b == b;
    } else {
      assert (a + b)[1..] == a[1..] + b;
      MatchingAppend(a[1..], b, m, rel, t);
    }
  }

  /** The first match is the head of the list of matches, and null when there is none. */
  lemma {:induction false} FirstMatchIsHead(links: seq<Link>, m: Matcher, rel: Option<string>, t: Option<string>)
    ensures var all := Matching(links, m, rel, t);
            FirstMatch(links, m, rel, t) == if all == [] then None else Some(all[0])
  {
    if links != [] && !m(links[0], rel, t) {
      FirstMatchIsHead(links[1..], m, rel, t);
    }
  }

  /** Removing the matches of a concatenation removes them from each part, keeping the survivors in order. */
  lemma {:induction false} NonMatchingAppend(a: seq<Link>, b: seq<Link>, m: Matcher, rel: Option<string>, t: Option<string>)
    ensures NonMatching(a + b, m, rel, t) == NonMatching(a, m, rel, t) + NonMatching(b, m, rel, t)
  {
    if a == [] {
      assert a + b == b;
    } else {
      assert (a + b)[1..] == a[1..] + b;
      NonMatchingAppend(a[1..], b, m, rel, t);
    }
  }

  /** Every link is either kept or removed by `removeLinks`, never both, never lost. */
  lemma {:induction false} MatchingPartition(links: seq<Link>, m: Matcher, rel: Option<string>, t: Option<string>)
    ensures multiset(Matching(links, m, rel, t)) + multiset(NonMatching(links, m, rel, t)) == multiset(links)
  {
    if links != [] {
      var head, rest := links[0], links[1..];
      MatchingPartition(rest, m, rel, t);
      assert links == [head] + rest;
      assert multiset(links) == multiset{head} + multiset(rest);
      if m(head, rel, t) {
        assert Matching(links, m, rel, t) == [head] + Matching(rest, m, rel, t);
        assert NonMatching(links, m, rel, t) == NonMatching(rest, m, rel, t);
      } else {
        assert Matching(links, m, rel, t) == Matching(rest, m, rel, t);
        assert NonMatching(links, m, rel, t) == [head] + NonMatching(rest, m, rel, t);
      }
    }
  }

  /** After `removeLinks(rel, type)`, `getLinks(rel, type)` is empty. */
  lemma RemovedLeavesNoMatch(links: seq<Link>, m: Matcher, rel: Option<string>, t: Option<string>)
    ensures Matching(NonMatching(links, m, rel, t), m, rel, t) == []
  {
  }

  /**
   * `addLink` after the existing links: a link already found is still the
   * first match, otherwise the new link is found exactly when it matches.
   */
  lemma FirstMatchAfterAppend(links: seq<Link>, link: Link, m: Matcher, rel: Option<string>, t: Option<string>)
    ensures FirstMatch(links + [link], m, rel, t) ==
            if FirstMatch(links, m, rel, t).Some? then FirstMatch(links, m, rel, t)
            else if m(link, rel, t) then Some(link) else None
  {
    FirstMatchIsHead(links + [link], m, rel, t);
    FirstMatchIsHead(links, m, rel, t);
    MatchingAppend(links, [link], m, rel, t);
  }

  /**
   * `addHtmlLink(htmlUri, lang, title)`: a new link with rel alternate,
   * type HTML and the given href; language and title are set only when
   * given, so otherwise they keep the null of a fresh link.
   */
  function HtmlLink(htmlUri: Option<string>, lang: Option<string>, title: Option<string>): (r: Link)
    ensures r.rel == Some(AlternateRel) && r.linkType == Some(HtmlType) && r.href == htmlUri
    ensures r.hrefLang == lang && r.title == title
  {
    var link := Link(Some(AlternateRel), Some(HtmlType), htmlUri, None, None);
    var link := if lang.Some? then link.(hrefLang := lang) else link;
    if title.Some? then link.(title := title) else link
  }

  /** `getHtmlLink()`: the first alternate HTML link. */
  function HtmlLinkOf(links: seq<Link>, m: Matcher): (r: Option<Link>)
    ensures r.None? <==> forall i :: 0 <= i < |links| ==> !m(links[i], Some(AlternateRel), Some(HtmlType))
    ensures r.Some? ==> exists j :: IsFirstMatch(links, m, Some(AlternateRel), Some(HtmlType), j) && links[j] == r.value
  {
    FirstMatch(links, m, Some(AlternateRel), Some(HtmlType))
  }

  /** A matcher accepts a link whose rel and type are exactly the ones asked for. */
  ghost predicate AcceptsExact(m: Matcher) {
    forall l: Link, r: string, t: string :: l.rel == Some(r) && l.linkType == Some(t) ==> m(l, Some(r), Some(t))
  }

  /**
   * With a matcher that accepts exact rel/type agreement, the HTML link of
   * a source without one is the link `addHtmlLink` appends.
   */
  lemma HtmlLinkFindsAdded(links: seq<Link>, m: Matcher, htmlUri: Option<string>, lang: Option<string>, title: Option<string>)
    requires AcceptsExact(m)
    requires HtmlLinkOf(links, m).None?
    ensures HtmlLinkOf(links + [HtmlLink(htmlUri, lang, title)], m) == Some(HtmlLink(htmlUri, lang, title))
  {
    var link := HtmlLink(htmlUri, lang, title);
    assert m(link, Some(AlternateRel), Some(HtmlType));
    FirstMatchAfterAppend(links, link, m, Some(AlternateRel), Some(HtmlType));
  }

  // ---------------------------------------------------------------------------
  // Updates of the state
  // ---------------------------------------------------------------------------

  /** The fields of the state, one per setter target. */
  datatype FieldName =
    | IdField | UpdatedField | CategoriesField | TitleField | SubtitleField | RightsField
    | IconField | LogoField | LinksField | AuthorsField | ContributorsField | GeneratorField

  /** `a` and `b` agree on field `f`. */
  predicate SameField(a: SourceState, b: SourceState, f: FieldName) {
    match f
    case IdField => a.id == b.id
    case UpdatedField => a.updated == b.updated
    case CategoriesField => a.categories == b.categories
    case TitleField => a.title == b.title
    case SubtitleField => a.subtitle == b.subtitle
    case RightsField => a.rights == b.rights
    case IconField => a.icon == b.icon
    case LogoField => a.logo == b.logo
    case LinksField => a.links == b.links
    case AuthorsField => a.authors == b.authors
    case ContributorsField => a.contributors == b.contributors
    case GeneratorField => a.generator == b.generator
  }

  /** The mutating operations of a source. */
  datatype Command =
    | SetId(id: Option<string>)
    | SetUpdated(updated: Option<DateTime>)
    | SetTitle(text: Option<TextConstruct>)
    | SetSubtitle(text: Option<TextConstruct>)
    | SetRights(text: Option<TextConstruct>)
    | SetIcon(uri: Option<string>)
    | SetLogo(uri: Option<string>)
    | SetGenerator(generator: Option<Generator>)
    | AddLink(link: Link)
    | RemoveLinks(rel: Option<string>, linkType: Option<string>)
    | ClearLinks
    | AddHtmlLink(htmlUri: Option<string>, lang: Option<string>, linkTitle: Option<string>)

  /** The one field a command writes. */
  function Target(c: Command): FieldName {
    match c
    case SetId(_) => IdField
    case SetUpdated(_) => UpdatedField
    case SetTitle(_) => TitleField
    case SetSubtitle(_) => SubtitleField
    case SetRights(_) => RightsField
    case SetIcon(_) => IconField
    case SetLogo(_) => LogoField
    case SetGenerator(_) => GeneratorField
    case _ => LinksField
  }

  /**
   * `setGenerator(version, uri, name)`: builds a generator from the three
   * values, installs it as the source's generator and returns it; nothing
   * else in the state changes.
   */
  function SetGeneratorFrom(st: SourceState, version: Option<string>, uri: Option<string>, name: Option<string>)
    : (r: (SourceState, Generator))
    ensures r.0.generator == Some(r.1)
    ensures r.1.version == version && r.1.uri == uri && r.1.name == name
    ensures forall f :: f != GeneratorField ==> SameField(st, r.0, f)
  {
    var g := Generator(version, uri, name);
    (st.(generator := Some(g)), g)
  }

  /**
   * `addLink(rel, type, href)`: builds a link with the three values and no
   * language or title, appends it to the links and returns it; nothing else
   * in the state changes.
   */
  function AddLinkFrom(st: SourceState, rel: Option<string>, linkType: Option<string>, href: Option<string>)
    : (r: (SourceState, Link))
    ensures r.0.links == st.links + [r.1]
    ensures r.1.rel == rel && r.1.linkType == linkType && r.1.href == href
    ensures r.1.hrefLang.None? && r.1.title.None?
    ensures forall f :: f != LinksField ==> SameField(st, r.0, f)
  {
    var l := Link(rel, linkType, href, None, None);
    (st.(links := st.links + [l]), l)
  }

  /** The effect of one command on the state. */
  function Apply(st: SourceState, c: Command, m: Matcher): (r: SourceState)
    ensures forall f :: f != Target(c) ==> SameField(st, r, f)
    ensures c.AddLink? ==> r.links == st.links + [c.link]
    ensures c.RemoveLinks? ==> r.links == NonMatching(st.links, m, c.rel, c.linkType)
    ensures c.ClearLinks? ==> r.links == []
    ensures c.AddHtmlLink? ==> r.links == st.links + [HtmlLink(c.htmlUri, c.lang, c.linkTitle)]
  {
    match c
    case SetId(v) => st.(id := v)
    case SetUpdated(v) => st.(updated := v)
    case SetTitle(v) => st.(title := v)
    case SetSubtitle(v) => st.(subtitle := v)
    case SetRights(v) => st.(rights := v)
    case SetIcon(v) => st.(icon := v)
    case SetLogo(v) => st.(logo := v)
    case SetGenerator(v) => st.(generator := v)
    case AddLink(l) => st.(links := st.links + [l])
    case RemoveLinks(rel, t) => st.(links := NonMatching(st.links, m, rel, t))
    case ClearLinks => st.(links := [])
    case AddHtmlLink(u, lang, title) => st.(links := st.links + [HtmlLink(u, lang, title)])
  }

  /** A setter is read back by its getter. */
  lemma SetterReadsBack(st: SourceState, c: Command, m: Matcher)
    requires !(c.AddLink? || c.RemoveLinks? || c.ClearLinks? || c.AddHtmlLink?)
    ensures var r := Apply(st, c, m);
            match c
            case SetId(v) => r.id == v
            case SetUpdated(v) => r.updated == v
            case SetTitle(v) => r.title == v
            case SetSubtitle(v) => r.subtitle == v
            case SetRights(v) => r.rights == v
            case SetIcon(v) => r.icon == v
            case SetLogo(v) => r.logo == v
            case SetGenerator(v) => r.generator == v
            case _ => false
  {
  }

  /** `setGenerator(version, uri, name)` acts as `setGenerator(gen)` given the generator it builds. */
  lemma GeneratorFromDelegates(st: SourceState, m: Matcher, version: Option<string>, uri: Option<string>, name: Option<string>)
    ensures var r := SetGeneratorFrom(st, version, uri, name);
            r.0 == Apply(st, SetGenerator(Some(r.1)), m)
  {
  }

  /** `addLink(rel, type, href)` acts as `addLink(link)` given the link it builds. */
  lemma LinkFromDelegates(st: SourceState, m: Matcher, rel: Option<string>, linkType: Option<string>, href: Option<string>)
    ensures var r := AddLinkFrom(st, rel, linkType, href);
            r.0 == Apply(st, AddLink(r.1), m)
  {
  }

  /** After `removeLinks()` no link is found, whatever is asked for. */
  lemma ClearLinksFindsNothing(st: SourceState, m: Matcher, rel: Option<string>, t: Option<string>)
    ensures FirstMatch(Apply(st, ClearLinks, m).links, m, rel, t).None?
    ensures Matching(Apply(st, ClearLinks, m).links, m, rel, t) == []
  {
  }

  // ---------------------------------------------------------------------------
  // Views sharing one state
  // ---------------------------------------------------------------------------

  /** Identity of a state record. */
  type Ref = nat

  /** All state records, by identity. */
  datatype Store = Store(states: map<Ref, SourceState>)

  /**
   * A `Source` object: its own identity `view` and the state record it
   * reads and writes through.
   */
  datatype Source = Source(view: nat, state: Ref)

  predicate Live(h: Store, s: Source) {
    s.state in h.states
  }

  /** `new Source()`: a view on a fresh, empty state record allocated at `q`. */
  function NewSource(h: Store, view: nat, q: Ref): (r: (Store, Source))
    requires q !in h.states
    ensures Live(r.0, r.1) && r.1.view == view
    ensures r.0.states[r.1.state] == EmptyState
    ensures forall p :: p in h.states ==> p in r.0.states && p != r.1.state && r.0.states[p] == h.states[p]
  {
    (Store(h.states[q := EmptyState]), Source(view, q))
  }

  /** The copy constructor: a new view on the SAME state record. */
  function CopyOf(s: Source, view: nat): (r: Source)
    ensures r.view == view && r.state == s.state
  {
    Source(view, s.state)
  }

  /** The state a view reads. */
  function Read(h: Store, s: Source): SourceState
    requires Live(h, s)
  {
    h.states[s.state]
  }

  /** A command issued through view `s`: it writes the record `s` shares. */
  function Perform(h: Store, s: Source, c: Command, m: Matcher): (r: Store)
    requires Live(h, s)
    ensures r.states.Keys == h.states.Keys
    ensures r.states[s.state] == Apply(Read(h, s), c, m)
    ensures forall q :: q in h.states && q != s.state ==> r.states[q] == h.states[q]
  {
    Store(h.states[s.state := Apply(Read(h, s), c, m)])
  }

  /**
   * A command issued through one view is seen through every view made from
   * it by the copy constructor, in both directions, and by no view on
   * another record.
   */
  lemma CopiesShareUpdates(h: Store, s: Source, view: nat, c: Command, m: Matcher)
    requires Live(h, s)
    ensures var copy := CopyOf(s, view);
            && Read(Perform(h, s, c, m), copy) == Apply(Read(h, s), c, m)
            && Read(Perform(h, copy, c, m), s) == Apply(Read(h, s), c, m)
    ensures forall other :: Live(h, other) && other.state != s.state ==>
              Read(Perform(h, s, c, m), other) == Read(h, other)
  {
  }
}

=== FILE: view_count.dfy ===
/**
 * The view-count label of a search result: its view count followed by a
 * space and the singular or plural word for "view".
 */
module ViewCount {
  import opened Nullable
  import JavaString

  /**
   * `viewCount + " " + (viewCount == 1 ? view : views)`: the rendered count,
   * a space, and the singular word exactly for a count of one.
   */
  function ViewsLabel(viewCount: int, view: string, views: string): (r: string)
    ensures var n := |JavaString.LongToString(viewCount)|;
            && n < |r| && r[n] == ' '
            && JavaString.ParseLong(r[..n]) == Some(viewCount)
            && (viewCount == 1 ==> r[n + 1..] == view)
            && (viewCount != 1 ==> r[n + 1..] == views)
  {
    var count := JavaString.LongToString(viewCount);
    var r := count + " " + (if viewCount == 1 then view else views);
    assert r[..|count|] == count;
    JavaString.LongToStringRoundTrip(viewCount);
    r
  }

  /** The label splits at its first space: the count before it, the word after it. */
  lemma ViewsLabelSplitsAtFirstSpace(viewCount: int, view: string, views: string)
    ensures var r := ViewsLabel(viewCount, view, views);
            var i := JavaString.IndexOf(r, " ");
            && i == |JavaString.LongToString(viewCount)|
            && JavaString.ParseLong(r[..i]) == Some(viewCount)
  {
    var r := ViewsLabel(viewCount, view, views);
    var count := JavaString.LongToString(viewCount);
    var n := |count|;
    assert r[..n] == count;
    JavaString.LongToStringHasNoSpace(viewCount);
    assert JavaString.OccursAt(r, " ", n);
    forall i | i < n
      ensures !JavaString.OccursAt(r, " ", i)
    {
      if 0 <= i {
        assert r[i] == count[i];
      }
    }
  }

  /** With distinct words, the label's word is the singular one exactly for a count of one. */
  lemma ViewsLabelSingularIff(viewCount: int, view: string, views: string)
    requires view != views
    ensures var r := ViewsLabel(viewCount, view, views);
            var n := |JavaString.LongToString(viewCount)|;
            r[n + 1..] == view <==> viewCount == 1
  {
  }
}
